=== FILE: README.md ===
# tablez grid enhancements: a Dafny model

tablez extends the child-table grid of a Frappe form. It adds the following:

- column sorting by clicking headings;
- a total row;
- fixed or automatic column widths and a computed actions column;
- Edit/Delete buttons for the row's link field;
- a row-click dispatcher with a generated tooltip;
- add-row dialogs and a dummy "Add" row;
- grouping, CSV export, row copying and required-field validation;
- a retrying `configure_grid` entry point;
- a server-side amount and total recomputation in the `TablezTest` document.

This project models the pure decision logic of those features as immutable datatypes and functions. It proves what each one promises. The browser and the host framework are replaced by values:

- a grid row is its document (`Row`, a map from field name to `Value`), plus the few facts about its cells that the logic reads;
- the child doctype's meta is `Meta`, an optional list of `Field`s;
- `Value` covers null/undefined, numbers (exact reals), strings and booleans, with JavaScript truthiness;
- where the source calls into the host, that call becomes a parameter:
  - `numText` renders a number as text;
  - `parse` and `toNumber` convert text to a number;
  - `ready` says whether the grid is enhanced yet.

Modules, one concept each:

| module | file | models |
|---|---|---|
| `Wrappers`, `Seqs`, `Values` | values.dfy | `Option`, sequence filtering/counting, JS values, rows, fields |
| `ActionsWidth` | actions_width.dfy | `calculate_actions_column_width` |
| `ColumnWidths` | column_widths.dfy | `apply_column_widths` |
| `Totals`, `TotalRow` | totals.dfy | `calculate_totals`, the cell layout of `render_total_row` |
| `ConfigMerge` | config_merge.dfy | both `configure_enhanced_grid`s, `make`, `disable_enhanced_grid` |
| `Sorting` | sorting.dfy | the heading click cycle and the three `sort_by_field` comparators |
| `GridUtils` | grid_utils.dfy | the helpers of grid_utils.js and the `configure_grid` retry |
| `Csv` | csv.dfy | `export_to_csv`, a reader for one record showing the quoting reversible, and the line structure of the whole text |
| `GridRow` | grid_row.dfy | `setup_enhanced_row_features`, the row click, `enhance_link_fields` |
| `GridFields` | grid_fields.dfy | primary link detection, add-row dialogs, the dummy Add row |
| `TablezTest` | tablez_test.dfy | `TablezTest.calculate_totals` (Python) |

Three behaviours of the code are easy to misread:

- `calculate_totals` coerces every non-numeric value to 0, so a `count` counts every saved row.
- A grid with an empty row list still gets a 0 for every configured column; only a missing row list gives `{}`.
- Both configuration merges are entirely shallow: a nested object such as `total_row_config` replaces the default wholesale.

## Model

| member | source | states |
|---|---|---|
| ActionsWidth.ComputedPixels | tablez/public/js/tablez_grid.js:243-272 | 0px with no button, else 20px padding + 40px per icon button + 80px for Save + 4px per gap; only 0, 60, 100, 104, 144 or 188 can result |
| ActionsWidth.CalculateActionsColumnWidth | tablez/public/js/tablez_grid.js:235-273 | a truthy width other than 'auto' is returned untouched; otherwise a pixel width that is 0 exactly when no button is enabled and 60-188 otherwise |
| ActionsWidth.MoreButtonsWider | tablez/public/js/tablez_grid.js:243-272 | enabling more buttons never makes the computed column narrower |
| ActionsWidth.DefaultWidth | tablez/public/js/tablez_grid.js:235-273 | 'auto' with only Save gives 100px, a null width with Edit and Delete gives 104px, '150px' passes through |
| ColumnWidths.StripBootstrap | tablez/public/js/tablez_grid.js:284-292 | a class survives exactly when it does not match `col-(xs\|sm\|md\|lg\|xl)-<digits>` |
| ColumnWidths.StripIdempotent | tablez/public/js/tablez_grid.js:284-292 | removing Bootstrap classes twice is the same as once |
| ColumnWidths.BootstrapExamples | tablez/public/js/tablez_grid.js:286 | col-sm-4 and col-lg-12 match; col-6, col-md-, col-xxl-3, row-check and the actions class do not |
| ColumnWidths.Classify | tablez/public/js/tablez_grid.js:316-332 | actions class first; row-check cells untouched; a truthy manual width for a named field next; auto layout only for named cells with auto width on |
| ColumnWidths.ManualBeatsAuto | tablez/public/js/tablez_grid.js:324-329 | a truthy manual width is used even when auto width is on |
| ColumnWidths.ApplyColumn | tablez/public/js/tablez_grid.js:294-332 | every styled cell loses exactly its Bootstrap classes and gets the actions, manual or flex sizing; untouched cells are unchanged |
| ColumnWidths.ClassifyStable | tablez/public/js/tablez_grid.js:316-352 | styling a cell does not change the decision made for it |
| ColumnWidths.ApplyColumnIdempotent | tablez/public/js/tablez_grid.js:294-332 | styling a cell twice is the same as once |
| ColumnWidths.ApplyColumnWidths | tablez/public/js/tablez_grid.js:316-352 | the heading row and every body row go through the same per-cell rule |
| ColumnWidths.ApplyColumnWidthsIdempotent | tablez/public/js/tablez_grid.js:278-353 | re-applying the widths with the same configuration changes nothing |
| Totals.Coerce | tablez/public/js/tablez_grid.js:381-384 | null, empty text and booleans become 0, numbers stay, other text is parsed or 0; never NaN |
| Totals.IncludedDocs | tablez/public/js/tablez_grid.js:375-377 | one document per row that has one and is not local; each such row's document sits at the position given by the number of such rows before it, so the list keeps row order |
| Totals.NaNFilterIsNoOp | tablez/public/js/tablez_grid.js:381-384 | the `!isNaN` filter removes nothing after the coercion |
| Totals.ColumnValues | tablez/public/js/tablez_grid.js:379-384 | one coerced number per saved row, in row order |
| Totals.Minimum | tablez/public/js/tablez_grid.js:397-398 | the minimum is one of the values and no value is smaller |
| Totals.Maximum | tablez/public/js/tablez_grid.js:400-401 | the maximum is one of the values and no value is larger |
| Totals.Total | tablez/public/js/tablez_grid.js:386-405 | sum, average/avg (0 for none), count, min and max (0 for none); any other operation gives 0 |
| Totals.CalculateTotals | tablez/public/js/tablez_grid.js:366-409 | no row list gives no totals; otherwise exactly the configured columns get the figure over the saved rows |
| Totals.CountIsIncludedRows | tablez/public/js/tablez_grid.js:375-396 | a count column equals the number of saved rows, numeric or not |
| Totals.EmptyGridAllZero | tablez/public/js/tablez_grid.js:371-405 | an empty row list gives 0 for every configured column |
| Totals.AverageBetweenMinAndMax | tablez/public/js/tablez_grid.js:390-401 | the average lies between the min and the max of the same values |
| Totals.ThreeRowExample | tablez/public/js/tablez_grid.js:366-409 | rows q=2,3,"x" and a=10,20,30 with q:sum and a:average give q=5 and a=20 |
| Totals.ThreeRowCount | tablez/public/js/tablez_grid.js:375-396 | on the same rows a count of q is 3 |
| TotalRow.Layout | tablez/public/js/tablez_grid.js:454-521 | one cell per remaining cell of the rendered row, in order; what each cell holds is stated by TotalRow.LayoutCellsAt and TotalRow.LayoutShape |
| TotalRow.LayoutShape | tablez/public/js/tablez_grid.js:454-521 | the first data column alone carries the label, which reads the configured label or "Total" when it is empty; every later data column shows its column's total when it has one and is blank otherwise; index, checkbox and handle cells are blank; the last cell is the actions spacer |
| ConfigMerge.Assign | tablez/public/js/tablez_grid.js:895 | keys of both objects; the source's value wins on shared keys |
| ConfigMerge.ConfigureFromDefaults | tablez/public/js/tablez_grid.js:855-896 | defaults overlaid by the call's options, plus the user-configured mark; nothing from earlier calls |
| ConfigMerge.ConfigureAccumulating | tablez/public/js/enhanced_grid.js:564-566 | the existing configuration overlaid by the call's options, plus the user-configured mark |
| ConfigMerge.TotalRowConfigReplaced | tablez/public/js/tablez_grid.js:876-895 | a supplied total_row_config replaces the default; a label-only one loses columns and style |
| ConfigMerge.NestedObjectsNotMerged | tablez/public/js/tablez_grid.js:895 | {style:{a,b}} merged with {style:{b:9}} is {style:{b:9}} |
| ConfigMerge.FromDefaultsForgetsEarlierCalls | tablez/public/js/tablez_grid.js:895-896 | an option from an earlier call that is not a default is gone after a call without it |
| ConfigMerge.AccumulatingKeepsEarlierCalls | tablez/public/js/enhanced_grid.js:565-566 | an option from an earlier call survives a call without it |
| ConfigMerge.AccumulatingComposes | tablez/public/js/enhanced_grid.js:565-566 | two calls equal one call with the second's options laid over the first's |
| ConfigMerge.Make | tablez/public/js/enhanced_grid.js:68-81 | a grid without configuration gets the disabled defaults; features are set up exactly when the configuration is enabled |
| ConfigMerge.Disable | tablez/public/js/tablez_grid.js:915-918 | enabled becomes false and no other option changes |
| ConfigMerge.TotalColumns | tablez/public/js/tablez_grid.js:367-368 | when `total_row_config` is an object whose `columns` is an object, exactly the keys of `columns`, each with its operation (an object operation reads as null); otherwise, a falsy `total_row_config` included, no columns |
| ConfigMerge.ConfiguredColumnsAreTotalled | tablez/public/js/tablez_grid.js:366-409 | a configuration call supplying `total_row_config.columns` gets one total per configured column, each computed with that column's operation over the saved rows |
| ConfigMerge.DefaultsTotalNothing | tablez/public/js/tablez_grid.js:876-878 | with the defaults no column is totalled |
| Sorting.NextSort | tablez/public/js/tablez_grid.js:165-172 | always asc, desc or none; desc exactly after asc, none exactly after desc |
| Sorting.SortCycle | tablez/public/js/tablez_grid.js:165-172 | from unsorted, three clicks go asc, desc, none |
| Sorting.ClickHeader | tablez/public/js/tablez_grid.js:160-189 | a nameless heading does nothing; otherwise the clicked heading advances, the others reset unless Shift, and the grid resets exactly when the new order is none, else sorts by it |
| Sorting.SingleSortWithoutShift | tablez/public/js/tablez_grid.js:174-177 | without Shift every other heading ends unsorted |
| Sorting.GridCompare | tablez/public/js/tablez_grid.js:200-208 | -1, 0 or 1; a null left side is after, a null right side before; in ascending order -1 exactly when a < b |
| Sorting.NullsLastEitherOrder | tablez/public/js/enhanced_grid.js:259-260 | a null key sorts after a non-null one in both orders, from either side |
| Sorting.GridCompareReverses | tablez/public/js/enhanced_grid.js:263-265 | for non-null keys desc is asc negated and swapping the operands negates |
| Sorting.GridCompareNullsInconsistent | tablez/public/js/enhanced_grid.js:259-260 | two null keys each claim to sort after the other |
| Sorting.GridCompareFixed | tablez/public/js/enhanced_grid.js:256-268 | two nulls are equal; every other pair compares as the source does |
| Sorting.GridCompareFixedAntisymmetric | tablez/public/js/enhanced_grid.js:256-268 | swapping the operands always negates the result |
| Sorting.SortRows | tablez/public/js/tablez_grid.js:197-213 | the rows are permuted, and rows with a null key end up after all others |
| Sorting.UtilsCompare | tablez/public/js/grid_utils.js:114-136 | null left after, null right before; two numbers by difference; otherwise the lower-cased texts; any order but asc is descending |
| Sorting.UtilsDescNegatesAsc | tablez/public/js/grid_utils.js:124-134 | for non-null values desc is asc negated |
| Sorting.UtilsCaseInsensitive | tablez/public/js/grid_utils.js:129-134 | texts compare as their lower-cased forms; texts equal up to letter case tie |
| Sorting.UtilsExamples | tablez/public/js/grid_utils.js:114-136 | Apple ties apple, Banana after apple, 2 before 10 |
| Sorting.StrLessCodeUnitOrder | tablez/public/js/enhanced_grid.js:265-266 | string `<` compares UTF-16 code units: U+1F600, stored from the surrogate U+D83D, sorts before the smaller character U+FF01 |
| GridUtils.PrimaryLinkField | tablez/public/js/grid_utils.js:22-29 | the name of the first Link field; none without meta or Link field |
| GridUtils.GetLinkFields | tablez/public/js/grid_utils.js:34-39 | the Link fields in meta order; empty without meta |
| GridUtils.PrimaryIsFirstLink | tablez/public/js/grid_utils.js:22-39 | the primary link field is the head of the link-field list |
| GridUtils.GetFieldValue | tablez/public/js/grid_utils.js:84-86 | the document's value when it is truthy, else null |
| GridUtils.IsFieldVisible | tablez/public/js/grid_utils.js:91-93 | a missing field is not visible; a present one is visible exactly when it is neither hidden nor read-only; the filter of `get_visible_fields` is this test minus the layout and table types |
| GridUtils.GetVisibleFields | tablez/public/js/grid_utils.js:98-109 | the visible, editable, non-layout fields in meta order |
| GridUtils.VisibleFieldsExactly | tablez/public/js/grid_utils.js:91-109 | a field is listed exactly when it is in the meta, visible and not a table or break |
| GridUtils.GroupByField | tablez/public/js/grid_utils.js:141-153 | no group is empty |
| GridUtils.GroupKeysExact | tablez/public/js/grid_utils.js:141-153 | the groups are exactly the keys occurring in the data |
| GridUtils.GroupContents | tablez/public/js/grid_utils.js:144-150 | each group is the items with its key, in input order |
| GridUtils.GroupsPartition | tablez/public/js/grid_utils.js:141-153 | every item is in its key's group and no group holds an item of another key |
| GridUtils.CopyRow | tablez/public/js/grid_utils.js:197-208 | exactly the keys outside the exclude list (default when omitted), with their values |
| GridUtils.CopyRowIdempotent | tablez/public/js/grid_utils.js:197-208 | copying a copy changes nothing; a row with no excluded key is copied whole |
| GridUtils.ValidateRequiredFields | tablez/public/js/grid_utils.js:213-223 | never more entries than fields |
| GridUtils.ValidateReportsMissing | tablez/public/js/grid_utils.js:213-223 | the report is the label (or name) of each required field with a falsy value, in meta order |
| GridUtils.ValidateEmptyIff | tablez/public/js/grid_utils.js:216-220 | nothing is reported exactly when every required field is truthy |
| GridUtils.CounterAsWritten | tablez/public/js/grid_utils.js:382 | an omitted counter and a counter of 0 both become 10 |
| GridUtils.CounterFixed | tablez/public/js/grid_utils.js:382 | only an omitted counter becomes 10 |
| GridUtils.Attempt | tablez/public/js/grid_utils.js:384-393 | configure exactly when ready; give up exactly when not ready and the counter is not positive; otherwise retry with one less |
| GridUtils.RetryNeverGivesUp | tablez/public/js/grid_utils.js:381-393 | as written, a call scheduled by a retry never gives up |
| GridUtils.RetryCounterWrapsAround | tablez/public/js/grid_utils.js:381-393 | as written, the last retry's counter 0 is turned back into 10 |
| GridUtils.RunFixed | tablez/public/js/grid_utils.js:381-393 | with the corrected default a chain configures at the first ready attempt, or gives up after exactly `counter` retries with none ready |
| GridUtils.FixedGivesUp | tablez/public/js/grid_utils.js:381-393 | with the corrected default a grid never enhanced is given up on after max_retries retries |
| Csv.Escape | tablez/public/js/grid_utils.js:175 | text without quotes is unchanged, and escaping never shortens |
| Csv.CsvField | tablez/public/js/grid_utils.js:171-178 | falsy values give empty cells; text with a comma or quote is quoted with doubled quotes; anything else is its text |
| Csv.ExportCsv | tablez/public/js/grid_utils.js:158-180 | nothing exactly when the data is missing or empty; otherwise the header line comes first |
| Csv.UnquotedRoundTrip | tablez/public/js/grid_utils.js:177 | a comma-free cell reads back unchanged, whatever follows it |
| Csv.QuotedRoundTrip | tablez/public/js/grid_utils.js:174-175 | a quoted, quote-doubled cell reads back as the original text |
| Csv.FieldRoundTrip | tablez/public/js/grid_utils.js:171-178 | every cell reads back as the text of its value |
| Csv.JoinRoundTrip | tablez/public/js/grid_utils.js:171-179 | a comma-joined line of cells reads back as one text per value |
| Csv.RecordRoundTrip | tablez/public/js/grid_utils.js:170-180 | once its extent is known, every record reads back as the texts of the row's values under the headers |
| Csv.ExportLines | tablez/public/js/grid_utils.js:164-180 | with no line feed in a header name or a cell, splitting the export at line feeds gives the header line, then exactly one record line per row in row order, then the empty piece after the last line feed |
| Csv.LineFeedSplitsRecord | tablez/public/js/grid_utils.js:171-179 | a text value holding a line feed, quoted or not, puts more pieces in the split than the header, one per row and the final empty one: its record is broken across lines |
| Csv.LineBreaksNotQuoted | tablez/public/js/grid_utils.js:174 | text with a line break but no comma or quote is written unquoted |
| Csv.CsvQuotingExamples | tablez/public/js/grid_utils.js:174-175 | a,b becomes "a,b" and x"y becomes "x""y" |
| Csv.CsvPlainExamples | tablez/public/js/grid_utils.js:174-177 | a two-line text is written as is, 0 is empty, true is "true" |
| GridRow.SelectAction | tablez/public/js/enhanced_grid_row.js:209-213 | the Shift action (default open_editor) with Shift, the click action (default open_document) without |
| GridRow.OnClick | tablez/public/js/enhanced_grid_row.js:197-240 | button clicks ignored; open_editor toggles the editor; otherwise navigation happens exactly when the link value is truthy and the field has options, in a new tab exactly with Ctrl or Meta; a missing meta throws |
| GridRow.DefaultClickActions | tablez/public/js/enhanced_grid_row.js:209-237 | with default actions a click opens the linked document and a Shift-click edits the row |
| GridRow.Tooltip | tablez/public/js/enhanced_grid_row.js:153-166 | a custom tooltip wins; otherwise it names the click and Shift-click actions |
| GridRow.TooltipMatchesClick | tablez/public/js/enhanced_grid_row.js:159-219 | the tooltip says "edit row" for a modifier exactly when that click opens the editor |
| GridRow.DefaultTooltip | tablez/public/js/enhanced_grid_row.js:159-165 | defaults with link field item give "Click to open item, Shift+Click to edit row" |
| GridRow.ChooseActionLinkField | tablez/public/js/enhanced_grid_row.js:297-312 | the primary link field when it is a Link field, else the first Link field, none exactly when there is no Link field |
| GridRow.DataColumnWidth | tablez/public/js/enhanced_grid_row.js:336 | a truthy configured width is kept as it is; a falsy one becomes 120px; the result is always truthy |
| GridRow.BuildButtons | tablez/public/js/enhanced_grid_row.js:323-442 | a cell without Delete is cleared and sized; a button is added only when enabled and absent (Edit also needs a link) |
| GridRow.EnhanceDataRow | tablez/public/js/enhanced_grid_row.js:255-443 | nothing changes with both buttons off, without meta or without a Link field |
| GridRow.NoDuplicateButtons | tablez/public/js/enhanced_grid_row.js:326-393 | no run puts a second Edit or Delete button in the cell |
| GridRow.EditButtonFlipFlop | tablez/public/js/enhanced_grid_row.js:326-390 | as written, with Edit on, Delete off and a linked row, successive runs show, drop and show the Edit button |
| GridRow.EnhanceFixedIdempotent | tablez/public/js/enhanced_grid_row.js:323-442 | corrected, a second run leaves the cell as the first left it |
| GridRow.EnhanceFixedFromHostCell | tablez/public/js/enhanced_grid_row.js:323-442 | corrected, a fresh cell gets exactly the enabled buttons |
| GridRow.EnhanceHeaderRow | tablez/public/js/enhanced_grid_row.js:255-289 | the last heading cell becomes a 120px actions cell exactly when a button is on, the child doctype has a Link field and the cell is not yet an actions cell; otherwise it is unchanged |
| GridRow.SetupRowFeatures | tablez/public/js/enhanced_grid_row.js:51-100 | nothing without the guard; otherwise marked set up, unsaved class exactly for local or unsaved docs, at most one click listener added, tooltip or no title |
| GridRow.SetupOnce | tablez/public/js/enhanced_grid_row.js:52-53 | an unforced second call changes nothing |
| GridRow.ForcedSetupStable | tablez/public/js/enhanced_grid_row.js:51-100 | a forced re-run keeps every decision and adds one more click listener |
| GridFields.DetectPrimaryLinkField | tablez/public/js/tablez_grid.js:120-132 | a truthy setting is kept; otherwise the first Link field is adopted; no other option changes |
| GridFields.DetectIdempotent | tablez/public/js/tablez_grid.js:120-132 | detecting twice is the same as once |
| GridFields.DetectFindsLink | tablez/public/js/tablez_grid.js:126-131 | with no setting and a Link field present, the setting names a Link field |
| GridFields.AddRowDialogFields | tablez/public/js/enhanced_grid.js:173-174 | without meta it fails; otherwise exactly the visible, editable, non-table fields, in meta order |
| GridFields.EnhancedAddDialogFields | tablez/public/js/enhanced_grid.js:346-372 | without meta nothing; otherwise every field but the internal ones, in order |
| GridFields.GridAddDialogFields | tablez/public/js/tablez_grid.js:658-687 | without meta nothing; otherwise the non-internal, editable, visible fields, in order |
| GridFields.AddDialogsDiffer | tablez/public/js/tablez_grid.js:665-674 | the tablez_grid.js dialog offers exactly the enhanced_grid.js dialog's fields minus hidden and read-only ones |
| GridFields.InternalNeverOffered | tablez/public/js/tablez_grid.js:665-670 | neither dialog offers name, idx, parent, parenttype, parentfield or docstatus |
| GridFields.ApplyDialogValues | tablez/public/js/tablez_grid.js:694-698 | every non-null entered value is written; everything else of the new row is kept |
| GridFields.ApplyTruthyValues | tablez/public/js/enhanced_grid.js:189-193 | only truthy entered values are written; everything else is kept |
| GridFields.DialogValuesDiffer | tablez/public/js/enhanced_grid.js:189-193 | the two agree unless a falsy non-null value is entered; an entered 0 is written by one and dropped by the other |
| GridFields.DummyAddRow | tablez/public/js/enhanced_grid.js:276-335 | nothing unless enabled; otherwise a spacer per visible cell but the last, then the Add cell |
| GridFields.DummyRowOneButton | tablez/public/js/enhanced_grid.js:296-331 | exactly one Add button, and one spacer per visible cell other than the last |
| TablezTest.Amount | tablez/tablez/doctype/tablez_test/tablez_test.py:20-23 | quantity times rate, with a falsy quantity or rate counting as 0 |
| TablezTest.AmountIgnoresStaleValue | tablez/tablez/doctype/tablez_test/tablez_test.py:20-23 | the amount stored before has no influence |
| TablezTest.CalculateTotals | tablez/tablez/doctype/tablez_test/tablez_test.py:13-30 | each item keeps its fields with the amount recomputed; totals are the quantity sum and the recomputed amount sum |
| TablezTest.AmountTotalMatchesItems | tablez/tablez/doctype/tablez_test/tablez_test.py:21-27 | the amount total equals the sum of the amounts stored on the items |
| TablezTest.Example | tablez/tablez/doctype/tablez_test/tablez_test.py:13-30 | quantities 2 and 3 at rates 10 and none give totals 5 and 20 |

## Left out

- DOM and jQuery work: CSS properties other than the sizing, hover effects, sort indicators, read-only styling of clicked rows, hiding of `.btn-open`. The model keeps only the decisions these depend on.
- Host calls: `frappe.get_meta`, routing, `window.open`, dialogs, `frappe.warn`, `msgprint`, `frm.dirty`, `refresh`, `reset_grid`, `add_new_row`. Meta is a parameter; navigation is an outcome value.
- Timers: the 100ms retry of `configure_grid` becomes a step sequence; the 100ms and 200ms re-enhancement timeouts are left out.
- The Blob download of `export_to_csv` and its alert. The model stops at the CSV text.
- Floating point: numbers are exact reals. `parseFloat` and JavaScript's number-to-text conversion are the parameters `parse`, `toNumber` and `numText`.
- Translation `__()`: the "Ungrouped" label is the parameter `ungrouped`. `toLowerCase` is modelled on ASCII letters only.
- Sorting.SortRows: the host's `Array.prototype.sort` algorithm is not modelled. The sort is an insertion sort with the corrected comparator, so only permutation and nulls-last are claimed.
- Grid initialisation glue: `initEnhancedGrid`, `enhanceExistingGrids`, prototype patching, form hooks, `apply_style_config`, `setup_enhanced_features` sequencing.
- `add_row_actions` and `setup_row_hover` of enhanced_grid_row.js: DOM decoration with no decision beyond what is modelled.
- The Edit and Delete button click handlers: the Edit button navigates like `OnClick`; the Delete handler removes the row after an optional confirmation.
- `setup_add_button` of tablez_grid.js: Add and Save buttons in the grid footer, and the save-and-reload sequence behind them.
- Bulk actions, grid_utils.js's `is_mobile`, `open_doc`, `show_alert`, `debounce` and `debug`. The examples/*.js scripts, tablez_test.js and sample_products.py are usage samples.
- `render_grouped_grid` / `setup_grouping`: they group rows as `GridUtils.GroupByField` does and only log the result.
- `render_total_row`: the removal of hidden index and checkbox cells happens before the layout, so `TotalRow.Layout` receives the remaining cells. The value formatting (currency, float, int, percent) and the styling are not modelled.
- Csv.ExportCsv: the header order is `Object.keys` order, which a map does not carry, so it is a `headers` parameter. The header line is joined unescaped, as in the source. Its own contract states only the header prefix; `Csv.ExportLines` ties every following line to its row's record when no line feed occurs, and `Csv.LineFeedSplitsRecord` shows a line feed in a value breaks a record, because neither quoted nor unquoted cells protect it from a line-based reader.
- GridRow.OnClick: every string option reads as "" when falsy, so a non-string `row_click_action` is not modelled. The field looked up for navigation is found by name without checking it is a Link field, as in the source.
- GridRow.SetupRowFeatures: uses the corrected Edit-button logic (see Findings). `setup_row_click_handler` on a row without an element would throw, which the model does not distinguish.
- GridUtils.ValidateRequiredFields: `meta.fields` missing would throw; the model takes the field list.
- ConfigMerge.TotalColumns: a `columns` entry that is a non-empty string would make `Object.keys` list its character positions as fields; the model reads any scalar `columns` as no columns.
- GridUtils.RunFixed: a counter in `configure_grid` is a number; non-numeric counters are not modelled.
- GridUtils.RetryNeverGivesUp: counters are integers. A fractional `max_retries` such as 2.5 steps 1.5, 0.5, -0.5; -0.5 is truthy, so `|| 10` keeps it, `> 0` fails and the source warns. The finding holds for omitted and integer counters only.
- GridUtils.GroupByField: the groups object is a plain `{}`, which answers inherited names such as `constructor` or `toString` with a truthy function. In the source an item whose group value is such a name skips the initialisation and `.push` throws (also during grid setup in `render_grouped_grid`); the model, a map with no inherited entries, gives it a group of its own.
- ColumnWidths.Classify: for the same reason a column named `constructor` finds a truthy `widths[fieldname]` in the source and is given a manual width; the model's width map has no inherited entries.
- TotalRow.LayoutShape: likewise `totals[fieldname] !== undefined` holds in the source for a column named after an inherited property; the model shows such a column blank.

## Findings

| source | as written | input that shows it | evidently intended | confidence | as-written member | corrected member |
|---|---|---|---|---|---|---|
| tablez/public/js/grid_utils.js:382 | `max_retries = max_retries \|\| 10` turns the last retry's counter 0 back into 10 | a grid that never gets `configure_enhanced_grid`: the calls pass 10, 9, …, 0, then 0 becomes 10 again, forever | `max_retries ?? 10`: warn and stop after the retries run out | high, not executed | GridUtils.RetryNeverGivesUp, GridUtils.RetryCounterWrapsAround | GridUtils.FixedGivesUp |
| tablez/public/js/enhanced_grid_row.js:326-356 | `hasEditBtn` is read before `$lastCol.empty()` and reused after it | `show_edit_button: true`, `show_delete_button: false`, a row whose link is set; every forced re-setup (tablez_grid.js:101, 708) alternately drops and restores the Edit button | check for the Edit button after clearing the cell, so a re-run keeps the button | high, not executed | GridRow.EditButtonFlipFlop | GridRow.EnhanceFixedIdempotent |
| tablez/public/js/enhanced_grid.js:259-260 | the comparator answers 1 for (null, null) in both argument orders | two rows whose sort key is null or undefined; `compare(a, b)` and `compare(b, a)` are both 1, which breaks the consistency `Array.prototype.sort` requires; the same two null checks are written at tablez_grid.js:204-205 and grid_utils.js:120-121 | two null keys compare equal (0) | medium, not executed | Sorting.GridCompareNullsInconsistent | Sorting.GridCompareFixedAntisymmetric |

=== FILE: actions_width.dfy ===
/** Width of the actions column (`calculate_actions_column_width` in tablez_grid.js). */
module ActionsWidth {
  import opened Values

  /** A CSS width as the source produces it: either the configured token passed through
      untouched, or a computed pixel count rendered as `<px>px` (`'0px'` is `Pixels(0)`). */
  datatype Width = Configured(token: Value) | Pixels(px: nat)

  /** Which buttons the actions column hosts (`show_edit_button`, `show_delete_button`,
      `show_save_button`, each read for truthiness). */
  datatype Buttons = Buttons(edit: bool, delete: bool, save: bool)

  function Bit(b: bool): nat {
    if b then 1 else 0
  }

  function ButtonCount(b: Buttons): (n: nat)
    ensures n <= 3
    ensures n == 0 <==> !b.edit && !b.delete && !b.save
  {
    Bit(b.edit) + Bit(b.delete) + Bit(b.save)
  }

  /** The source's running total: 20px of padding, 40px per icon button, 80px for the wider
      Save button, 4px per gap between buttons, and 0 when there is no button at all. */
  function ComputedPixels(b: Buttons): (px: nat)
    ensures ButtonCount(b) == 0 ==> px == 0
    ensures ButtonCount(b) > 0 ==>
      px == 20 + 40 * Bit(b.edit) + 40 * Bit(b.delete) + 80 * Bit(b.save) + 4 * (ButtonCount(b) - 1)
    ensures px in {0, 60, 100, 104, 144, 188}
  {
    var afterEdit := if b.edit then 20 + 40 else 20;
    var afterDelete := if b.delete then afterEdit + 40 else afterEdit;
    var afterSave := if b.save then afterDelete + 80 else afterDelete;
    var n := ButtonCount(b);
    var withGaps := if n > 1 then afterSave + (n - 1) * 4 else afterSave;
    if n == 0 then 0 else withGaps
  }

  /** True when the configured token is used as is: truthy and not the literal `'auto'`. */
  predicate IsExplicit(token: Value) {
    Truthy(token) && token != Str("auto")
  }

  /** `calculate_actions_column_width`: an explicit token passes through unchanged; otherwise
      the width follows from the enabled buttons and collapses to zero exactly when none is. */
  function CalculateActionsColumnWidth(token: Value, b: Buttons): (w: Width)
    ensures IsExplicit(token) ==> w == Configured(token)
    ensures !IsExplicit(token) ==> w.Pixels?
    ensures w.Pixels? ==> (w.px == 0 <==> ButtonCount(b) == 0)
    ensures w.Pixels? ==> w.px == 0 || 60 <= w.px <= 188
  {
    if IsExplicit(token) then Configured(token) else Pixels(ComputedPixels(b))
  }

  /** Enabling one more button never narrows the computed column. */
  lemma MoreButtonsWider(b: Buttons, b': Buttons)
    requires b.edit ==> b'.edit
    requires b.delete ==> b'.delete
    requires b.save ==> b'.save
    ensures ComputedPixels(b) <= ComputedPixels(b')
  {
  }

  /** The defaults of tablez_grid.js (`actions_column_width: 'auto'`, only Save enabled) give 100px;
      the null token of a cleared setting behaves like `'auto'`. */
  lemma DefaultWidth()
    ensures CalculateActionsColumnWidth(Str("auto"), Buttons(false, false, true)) == Pixels(100)
    ensures CalculateActionsColumnWidth(Null, Buttons(true, true, false)) == Pixels(104)
    ensures CalculateActionsColumnWidth(Str("150px"), Buttons(true, true, true)) == Configured(Str("150px"))
  {
  }
}

=== FILE: column_widths.dfy ===
/** Column sizing (`apply_column_widths` in tablez_grid.js): how each header and body cell of
    the grid is classified, and what the inline style it ends up with is. */
module ColumnWidths {
  import opened Wrappers
  import opened Seqs
  import opened Values
  import opened ActionsWidth

  const ActionsClass: string := "tablez-actions-column"
  const RowCheckClass: string := "row-check"

  /** The sizing a cell carries: whatever the host laid out, a fixed width (`width`,
      `min-width`, `max-width` and `flex: 0 0 <w>` all set to one value), or the auto layout
      (`flex: 1 1 0` with a 100px minimum). */
  datatype Sizing = HostLayout | Fixed(width: Width) | Flex

  /** One `.col` cell: its class list, its `data-fieldname` ("" when absent) and its sizing. */
  datatype Column = Column(classes: seq<string>, fieldname: string, sizing: Sizing)

  /** What `apply_column_widths` decides for one cell. */
  datatype Rule = ActionsRule | Untouched | ManualRule(width: Value) | AutoRule

  /** The settings the decision reads: `column_widths` (null or an object), the computed
      actions width and `auto_column_width`. */
  datatype WidthConfig = WidthConfig(widths: Option<map<string, Value>>, actions: Width, autoWidth: bool)

  predicate IsDigit(c: char) {
    '0' <= c <= '9'
  }

  predicate AllDigits(s: string) {
    forall i :: 0 <= i < |s| ==> IsDigit(s[i])
  }

  /** The class matches `^col-(xs|sm|md|lg|xl)-\d+$`. */
  predicate IsBootstrapColClass(c: string) {
    && |c| >= 8
    && c[..4] == "col-"
    && c[4..6] in ["xs", "sm", "md", "lg", "xl"]
    && c[6] == '-'
    && AllDigits(c[7..])
  }

  /** `removeBootstrapColClasses`: drop every Bootstrap grid class and keep every other one,
      in order. */
  function StripBootstrap(classes: seq<string>): (r: seq<string>)
    ensures forall c :: c in r <==> c in classes && !IsBootstrapColClass(c)
    ensures |r| <= |classes|
  {
    var r := Filter(classes, c => !IsBootstrapColClass(c));
    assert forall c :: c in r <==> c in classes && !IsBootstrapColClass(c) by {
      forall c
        ensures c in r <==> c in classes && !IsBootstrapColClass(c)
      {
        FilterMembers(classes, c => !IsBootstrapColClass(c), c);
      }
    }
    r
  }

  lemma {:induction false} StripIdempotent(classes: seq<string>)
    ensures StripBootstrap(StripBootstrap(classes)) == StripBootstrap(classes)
  {
    var r := StripBootstrap(classes);
    FilterAll(r, c => !IsBootstrapColClass(c));
  }

  lemma BootstrapExamples()
    ensures IsBootstrapColClass("col-sm-4")
    ensures IsBootstrapColClass("col-lg-12")
    ensures !IsBootstrapColClass("col-6")
    ensures !IsBootstrapColClass("col-md-")
    ensures !IsBootstrapColClass("col-xxl-3")
    ensures !IsBootstrapColClass("row-check")
    ensures !IsBootstrapColClass(ActionsClass)
  {
    assert "col-sm-4"[..4] == "col-" && "col-sm-4"[4..6] == "sm";
    assert "col-lg-12"[..4] == "col-" && "col-lg-12"[4..6] == "lg";
    assert "col-xxl-3"[4..6] == "xx";
    assert ActionsClass[..4] == "tabl";
  }

  /** The decision made for one cell, identical for the heading row and every body row. */
  function Classify(col: Column, cfg: WidthConfig): (rule: Rule)
    ensures ActionsClass in col.classes <==> rule == ActionsRule
    ensures rule == AutoRule ==> cfg.autoWidth && col.fieldname != ""
    ensures rule.ManualRule? ==>
      && cfg.widths.Some? && col.fieldname != "" && col.fieldname in cfg.widths.value
      && rule.width == cfg.widths.value[col.fieldname] && Truthy(rule.width)
    ensures RowCheckClass in col.classes && ActionsClass !in col.classes ==> rule == Untouched
    ensures rule == Untouched && RowCheckClass !in col.classes ==>
      (col.fieldname == "" || !cfg.autoWidth)
  {
    if ActionsClass in col.classes then ActionsRule
    else if RowCheckClass in col.classes then Untouched
    else if cfg.widths.Some? && col.fieldname != "" && Truthy(Get(cfg.widths.value, col.fieldname)) then
      ManualRule(Get(cfg.widths.value, col.fieldname))
    else if cfg.autoWidth && col.fieldname != "" then AutoRule
    else Untouched
  }

  /** A truthy manual width always beats the auto layout. */
  lemma ManualBeatsAuto(col: Column, cfg: WidthConfig)
    requires ActionsClass !in col.classes && RowCheckClass !in col.classes
    requires cfg.widths.Some? && col.fieldname != "" && col.fieldname in cfg.widths.value
    requires Truthy(cfg.widths.value[col.fieldname])
    ensures Classify(col, cfg) == ManualRule(cfg.widths.value[col.fieldname])
  {
  }

  /** `applyWidthStyles` / `applyAutoWidthStyles` on one cell, or nothing. */
  function ApplyColumn(col: Column, cfg: WidthConfig): (r: Column)
    ensures r.fieldname == col.fieldname
    ensures Classify(col, cfg) == Untouched ==> r == col
    ensures Classify(col, cfg) != Untouched ==>
      forall c :: c in r.classes <==> c in col.classes && !IsBootstrapColClass(c)
    ensures Classify(col, cfg) == ActionsRule ==> r.sizing == Fixed(cfg.actions)
    ensures Classify(col, cfg) == AutoRule ==> r.sizing == Flex
    ensures Classify(col, cfg).ManualRule? ==> r.sizing == Fixed(Configured(Classify(col, cfg).width))
  {
    match Classify(col, cfg)
    case ActionsRule => col.(classes := StripBootstrap(col.classes), sizing := Fixed(cfg.actions))
    case Untouched => col
    case ManualRule(w) => col.(classes := StripBootstrap(col.classes), sizing := Fixed(Configured(w)))
    case AutoRule => col.(classes := StripBootstrap(col.classes), sizing := Flex)
  }

  /** Styling a cell keeps the classes and field name the decision reads, so the decision
      for the styled cell is the same. */
  lemma ClassifyStable(col: Column, cfg: WidthConfig)
    ensures Classify(ApplyColumn(col, cfg), cfg) == Classify(col, cfg)
  {
    var r := ApplyColumn(col, cfg);
    assert !IsBootstrapColClass(ActionsClass) && !IsBootstrapColClass(RowCheckClass) by {
      BootstrapExamples();
      assert RowCheckClass[..4] == "row-";
    }
    assert ActionsClass in r.classes <==> ActionsClass in col.classes;
    assert RowCheckClass in r.classes <==> RowCheckClass in col.classes;
  }

  lemma ApplyColumnIdempotent(col: Column, cfg: WidthConfig)
    ensures ApplyColumn(ApplyColumn(col, cfg), cfg) == ApplyColumn(col, cfg)
  {
    ClassifyStable(col, cfg);
    StripIdempotent(col.classes);
  }

  /** One pass over a row of cells. */
  function ApplyRow(cols: seq<Column>, cfg: WidthConfig): (r: seq<Column>)
    ensures |r| == |cols|
    ensures forall i :: 0 <= i < |cols| ==> r[i] == ApplyColumn(cols[i], cfg)
  {
    seq(|cols|, i requires 0 <= i < |cols| => ApplyColumn(cols[i], cfg))
  }

  /** `apply_column_widths`: the heading row and each body row go through the same rule. */
  function ApplyColumnWidths(header: seq<Column>, body: seq<seq<Column>>, cfg: WidthConfig)
    : (r: (seq<Column>, seq<seq<Column>>))
    ensures r.0 == ApplyRow(header, cfg)
    ensures |r.1| == |body|
    ensures forall k :: 0 <= k < |body| ==> r.1[k] == ApplyRow(body[k], cfg)
  {
    (ApplyRow(header, cfg), seq(|body|, k requires 0 <= k < |body| => ApplyRow(body[k], cfg)))
  }

  /** Reapplying the widths with an unchanged configuration changes nothing. */
  lemma {:induction false} ApplyColumnWidthsIdempotent(header: seq<Column>, body: seq<seq<Column>>, cfg: WidthConfig)
    ensures var once := ApplyColumnWidths(header, body, cfg);
            ApplyColumnWidths(once.0, once.1, cfg) == once
  {
    var once := ApplyColumnWidths(header, body, cfg);
    forall i | 0 <= i < |header|
      ensures ApplyColumn(once.0[i], cfg) == once.0[i]
    {
      ApplyColumnIdempotent(header[i], cfg);
    }
    forall k, i | 0 <= k < |body| && 0 <= i < |body[k]|
      ensures ApplyColumn(once.1[k][i], cfg) == once.1[k][i]
    {
      ApplyColumnIdempotent(body[k][i], cfg);
    }
    var twice := ApplyColumnWidths(once.0, once.1, cfg);
    assert twice.0 == once.0;
    forall k | 0 <= k < |body|
      ensures twice.1[k] == once.1[k]
    {
      assert ApplyRow(once.1[k], cfg) == once.1[k];
    }
    assert |twice.1| == |once.1|;
    assert twice.1 == once.1;
  }
}

=== FILE: config_merge.dfy ===
/** The grid configuration object and the two ways the source installs it:
    `configure_enhanced_grid` in tablez_grid.js rebuilds it from fixed defaults on every call,
    the one in enhanced_grid.js merges each call into whatever is already there. */
module ConfigMerge {
  import opened Wrappers
  import opened Values
  import Totals

  /** One configuration entry: a scalar or a nested object such as `total_row_config`. */
  datatype Setting = Scalar(v: Value) | Object(fields: map<string, Setting>)

  /** A configuration object: option name to entry. */
  type Config = map<string, Setting>

  const UserConfigured: string := "_user_configured"
  const Enabled: string := "enabled"

  /** JavaScript truthiness of an entry; every object is truthy. */
  predicate SettingTruthy(s: Setting) {
    s.Object? || Truthy(s.v)
  }

  /** `config[key]`, `undefined` when absent. */
  function Lookup(c: Config, key: string): (s: Setting)
    ensures key !in c ==> s == Scalar(Null)
  {
    if key in c then c[key] else Scalar(Null)
  }

  function Flag(b: bool): Setting {
    Scalar(Bool(b))
  }

  function Text(s: string): Setting {
    Scalar(Str(s))
  }

  const NullSetting: Setting := Scalar(Null)

  /** `total_row_config` of the tablez_grid.js defaults. */
  const DefaultTotalRowConfig: Setting := Object(map[
    "label" := Text("Total"),
    "columns" := Object(map[]),
    "style" := Object(map[
      "background" := Text("#f8f9fa"),
      "fontWeight" := Text("bold"),
      "borderTop" := Text("2px solid #dee2e6")])])

  /** `DEFAULT_CONFIG` of `configure_enhanced_grid` in tablez_grid.js. */
  const GridDefaults: Config := map[
    "enabled" := Flag(true),
    "primary_link_field" := NullSetting,
    "show_add_button" := Flag(false),
    "add_button_label" := Text("Add Row"),
    "add_button_action" := Text("dialog"),
    "enable_sorting" := Flag(true),
    "enable_grouping" := Flag(false),
    "enhanced_link_clicks" := Flag(false),
    "show_edit_button" := Flag(false),
    "show_delete_button" := Flag(false),
    "show_save_button" := Flag(true),
    "confirm_delete" := Flag(true),
    "show_row_actions" := Flag(false),
    "allow_row_reorder" := Flag(true),
    "enable_row_click" := Flag(false),
    "row_click_action" := Text("open_document"),
    "row_shift_click_action" := Text("open_editor"),
    "row_click_tooltip" := NullSetting,
    "show_total_row" := Flag(false),
    "total_row_config" := DefaultTotalRowConfig,
    "column_widths" := NullSetting,
    "auto_column_width" := Flag(false),
    "actions_column_width" := Text("auto"),
    "hide_row_numbers" := Flag(false),
    "hide_checkboxes" := Flag(false),
    "hide_edit_icon" := Flag(false),
    "hide_add_row_button" := Flag(false),
    "custom_css" := NullSetting]

  /** `DEFAULT_CONFIG` of enhanced_grid.js: everything off, including `enabled`. */
  const EnhancedDefaults: Config := map[
    "enabled" := Flag(false),
    "primary_link_field" := NullSetting,
    "show_add_dialog" := Flag(false),
    "show_add_button" := Flag(false),
    "enable_sorting" := Flag(false),
    "enable_grouping" := Flag(false),
    "group_by_field" := NullSetting,
    "show_edit_button" := Flag(false),
    "show_delete_button" := Flag(false),
    "show_row_actions" := Flag(false),
    "allow_row_reorder" := Flag(true),
    "enable_row_click" := Flag(false),
    "hide_row_numbers" := Flag(false),
    "hide_checkboxes" := Flag(false),
    "hide_edit_icon" := Flag(false),
    "hide_add_row_button" := Flag(false),
    "hide_bulk_actions" := Flag(false),
    "custom_css" := NullSetting]

  /** `Object.assign(target, source)`: a top-level copy of `source`'s entries over `target`;
      nested objects are copied by reference, never merged. */
  function Assign(target: Config, source: Config): (r: Config)
    ensures r.Keys == target.Keys + source.Keys
    ensures forall k :: k in source ==> r[k] == source[k]
    ensures forall k :: k in target && k !in source ==> r[k] == target[k]
  {
    target + source
  }

  /** `configure_enhanced_grid` of tablez_grid.js: `Object.assign({}, DEFAULT_CONFIG, config)`
      then `_user_configured = true`. Whatever the grid held before is discarded. */
  function ConfigureFromDefaults(overrides: Config): (c: Config)
    ensures c.Keys == GridDefaults.Keys + overrides.Keys + {UserConfigured}
    ensures c[UserConfigured] == Flag(true)
    ensures forall k :: k in overrides && k != UserConfigured ==> c[k] == overrides[k]
    ensures forall k :: k in GridDefaults && k !in overrides && k != UserConfigured ==> c[k] == GridDefaults[k]
  {
    Assign(Assign(map[], GridDefaults), overrides)[UserConfigured := Flag(true)]
  }

  /** `configure_enhanced_grid` of enhanced_grid.js:
      `Object.assign(this.enhanced_config || {}, config)` then `_user_configured = true`. */
  function ConfigureAccumulating(existing: Option<Config>, overrides: Config): (c: Config)
    ensures c.Keys == existing.GetOr(map[]).Keys + overrides.Keys + {UserConfigured}
    ensures c[UserConfigured] == Flag(true)
    ensures forall k :: k in overrides && k != UserConfigured ==> c[k] == overrides[k]
    ensures forall k :: k in existing.GetOr(map[]) && k !in overrides && k != UserConfigured ==>
      c[k] == existing.GetOr(map[])[k]
  {
    Assign(existing.GetOr(map[]), overrides)[UserConfigured := Flag(true)]
  }

  /** A supplied `total_row_config` replaces the default one wholesale: a label-only override
      loses the default `columns` and `style`. */
  lemma TotalRowConfigReplaced(overrides: Config)
    requires "total_row_config" in overrides
    ensures ConfigureFromDefaults(overrides)["total_row_config"] == overrides["total_row_config"]
    ensures overrides["total_row_config"] == Object(map["label" := Text("Sum")]) ==>
      var t := ConfigureFromDefaults(overrides)["total_row_config"];
      "style" !in t.fields && "columns" !in t.fields
  {
  }

  /** Merging `{style: {a: 1, b: 2}}` with `{style: {b: 9}}` gives `{style: {b: 9}}`: the nested
      sibling `a` is not kept. */
  lemma NestedObjectsNotMerged()
    ensures var base := map["style" := Object(map["a" := Scalar(Num(1.0)), "b" := Scalar(Num(2.0))])];
            var over := map["style" := Object(map["b" := Scalar(Num(9.0))])];
            Assign(base, over) == over
  {
    var base := map["style" := Object(map["a" := Scalar(Num(1.0)), "b" := Scalar(Num(2.0))])];
    var over := map["style" := Object(map["b" := Scalar(Num(9.0))])];
    assert Assign(base, over).Keys == over.Keys;
  }

  /** tablez_grid.js: a second call forgets what the first one set, unless it is a default. */
  lemma FromDefaultsForgetsEarlierCalls(first: Config, second: Config, k: string)
    requires k in first && k !in second && k !in GridDefaults && k != UserConfigured
    ensures k in ConfigureFromDefaults(first)
    ensures k !in ConfigureFromDefaults(second)
  {
  }

  /** enhanced_grid.js: a key set by an earlier call survives a later call that does not name it. */
  lemma AccumulatingKeepsEarlierCalls(existing: Option<Config>, first: Config, second: Config, k: string)
    requires k in first && k !in second && k != UserConfigured
    ensures ConfigureAccumulating(Some(ConfigureAccumulating(existing, first)), second)[k] == first[k]
  {
  }

  /** enhanced_grid.js: two calls amount to one call with the second call's options laid over
      the first's. */
  lemma AccumulatingComposes(existing: Option<Config>, first: Config, second: Config)
    ensures ConfigureAccumulating(Some(ConfigureAccumulating(existing, first)), second)
            == ConfigureAccumulating(existing, Assign(first, second))
  {
    MarkedMergeAssociates(existing.GetOr(map[]), first, second, UserConfigured, Flag(true));
  }

  /** Marking, merging and marking again is merging once and marking. */
  lemma MarkedMergeAssociates<K, V>(a: map<K, V>, b: map<K, V>, c: map<K, V>, u: K, v: V)
    ensures ((a + b)[u := v] + c)[u := v] == (a + (b + c))[u := v]
  {
    var lhs := ((a + b)[u := v] + c)[u := v];
    var rhs := (a + (b + c))[u := v];
    assert lhs.Keys == rhs.Keys;
  }

  /** The `make` override of enhanced_grid.js: a grid without a configuration gets a copy of the
      defaults (disabled); an existing one is kept. The features are set up only when enabled. */
  function Make(existing: Option<Config>): (r: (Config, bool))
    ensures existing.None? ==> r.0 == EnhancedDefaults && !r.1
    ensures existing.Some? ==> r.0 == existing.value
    ensures r.1 <==> existing.Some? && SettingTruthy(Lookup(existing.value, Enabled))
  {
    var c := existing.GetOr(EnhancedDefaults);
    assert existing.None? ==> Lookup(c, Enabled) == Flag(false);
    (c, SettingTruthy(Lookup(c, Enabled)))
  }

  /** `disable_enhanced_grid`: `enabled` becomes false and nothing else changes. */
  function Disable(c: Config): (r: Config)
    ensures !SettingTruthy(Lookup(r, Enabled))
    ensures r.Keys == c.Keys + {Enabled}
    ensures forall k :: k in c && k != Enabled ==> r[k] == c[k]
  {
    c[Enabled := Flag(false)]
  }

  /** The `total_row_config.columns` map that `calculate_totals` reads
      (`(total_row_config || {}).columns || {}`); an operation that is an object is not a
      string, so it reads as `Null`, which selects no operation either. */
  function TotalColumns(c: Config): (cols: map<string, Value>)
    ensures !SettingTruthy(Lookup(c, "total_row_config")) ==> cols == map[]
    ensures var t := Lookup(c, "total_row_config");
      t.Object? && "columns" in t.fields && t.fields["columns"].Object? ==>
        var m := t.fields["columns"].fields;
        && cols.Keys == m.Keys
        && forall k :: k in cols ==> cols[k] == (if m[k].Scalar? then m[k].v else Null)
    ensures var t := Lookup(c, "total_row_config");
      !(t.Object? && "columns" in t.fields && t.fields["columns"].Object?) ==> cols == map[]
  {
    var t := Lookup(c, "total_row_config");
    if t.Object? && "columns" in t.fields && t.fields["columns"].Object? then
      var m := t.fields["columns"].fields;
      map k | k in m :: if m[k].Scalar? then m[k].v else Null
    else map[]
  }

  /** A configuration call that supplies `total_row_config: {columns: cols}` with an operation
      per column gets exactly those columns totalled: one total per configured column, each
      computed with that column's operation over the saved rows. */
  lemma ConfiguredColumnsAreTotalled(overrides: Config, cols: map<string, Setting>,
                                     rows: seq<Totals.GridRow>, parse: string -> Option<real>)
    requires "total_row_config" in overrides && overrides["total_row_config"].Object?
    requires "columns" in overrides["total_row_config"].fields
    requires overrides["total_row_config"].fields["columns"] == Object(cols)
    requires forall k :: k in cols ==> cols[k].Scalar?
    ensures var totals := Totals.CalculateTotals(Some(rows), TotalColumns(ConfigureFromDefaults(overrides)), parse);
      && totals.Keys == cols.Keys
      && forall f :: f in cols ==>
           totals[f] == Totals.Total(cols[f].v, Totals.ColumnValues(Totals.IncludedDocs(rows), f, parse))
  {
    var c := ConfigureFromDefaults(overrides);
    assert "total_row_config" != UserConfigured;
    assert Lookup(c, "total_row_config") == overrides["total_row_config"];
  }

  /** With the tablez_grid.js defaults no column is totalled. */
  lemma DefaultsTotalNothing()
    ensures TotalColumns(ConfigureFromDefaults(map[])) == map[]
  {
    var c := ConfigureFromDefaults(map[]);
    DefaultTotalRowConfigIsDefault();
    assert Lookup(c, "total_row_config") == DefaultTotalRowConfig;
    DefaultTotalRowConfigHasNoColumns();
  }

  lemma DefaultTotalRowConfigIsDefault()
    ensures "total_row_config" in GridDefaults && GridDefaults["total_row_config"] == DefaultTotalRowConfig
  {
  }

  lemma DefaultTotalRowConfigHasNoColumns()
    ensures "columns" in DefaultTotalRowConfig.fields
    ensures DefaultTotalRowConfig.fields["columns"] == Object(map[])
  {
  }
}

=== FILE: csv.dfy ===
/** The CSV text built by `export_to_csv` in grid_utils.js, and a reader for its records that
    shows the quoting can be undone. */
module Csv {
  import opened Wrappers
  import opened Values

  /** A field value needs quoting when it contains a comma or a double quote (rules 6 and 7 of
      section 2 of RFC 4180, without rule 6's line breaks). */
  predicate NeedsQuotes(s: string) {
    ',' in s || '"' in s
  }

  /** Every `"` doubled (`value.replace(/"/g, '""')`). */
  function Escape(s: string): (e: string)
    ensures |e| >= |s|
    ensures (forall i :: 0 <= i < |s| ==> s[i] != '"') ==> e == s
  {
    if s == [] then []
    else (if s[0] == '"' then "\"\"" else [s[0]]) + Escape(s[1..])
  }

  /** What a cell means: the text of a truthy value, and nothing for a falsy one. */
  function Text(v: Value, numText: real -> string): (t: string)
    ensures !Truthy(v) ==> t == ""
  {
    if Truthy(v) then JsString(v, numText) else ""
  }

  /** One cell: a non-empty string containing `,` or `"` is quoted with its quotes doubled; a
      falsy value (null, `""`, 0, false) is empty; any other value is its plain text. */
  function CsvField(v: Value, numText: real -> string): (f: string)
    ensures !Truthy(v) ==> f == ""
    ensures v.Str? && NeedsQuotes(v.s) ==> f == "\"" + Escape(v.s) + "\""
    ensures !(v.Str? && NeedsQuotes(v.s)) ==> f == Text(v, numText)
  {
    if v.Str? && v.s != "" && NeedsQuotes(v.s) then "\"" + Escape(v.s) + "\""
    else Text(v, numText)
  }

  /** `Array.prototype.join(',')`. */
  function JoinFields(fs: seq<string>): string {
    if fs == [] then ""
    else if |fs| == 1 then fs[0]
    else fs[0] + "," + JoinFields(fs[1..])
  }

  function Cells(row: Row, headers: seq<string>, numText: real -> string): (cells: seq<string>)
    ensures |cells| == |headers|
    ensures forall i :: 0 <= i < |headers| ==> cells[i] == CsvField(Get(row, headers[i]), numText)
  {
    seq(|headers|, i requires 0 <= i < |headers| => CsvField(Get(row, headers[i]), numText))
  }

  function Texts(row: Row, headers: seq<string>, numText: real -> string): (ts: seq<string>)
    ensures |ts| == |headers|
    ensures forall i :: 0 <= i < |headers| ==> ts[i] == Text(Get(row, headers[i]), numText)
  {
    seq(|headers|, i requires 0 <= i < |headers| => Text(Get(row, headers[i]), numText))
  }

  /** One record: the cells in header order, joined by commas, ended by a line feed. */
  function Record(row: Row, headers: seq<string>, numText: real -> string): (line: string)
    ensures |line| > 0 && line[|line| - 1] == '\n'
  {
    JoinFields(Cells(row, headers, numText)) + "\n"
  }

  function Records(data: seq<Row>, headers: seq<string>, numText: real -> string): string {
    if data == [] then "" else Record(data[0], headers, numText) + Records(data[1..], headers, numText)
  }

  /** `export_to_csv` up to the download: nothing for missing or empty data; otherwise the
      header line (the keys of the first row, unquoted) and one record per row. Key order is
      JavaScript's property order, which a map does not carry, so it is passed as `headers`. */
  function ExportCsv(data: Option<seq<Row>>, headers: seq<string>, numText: real -> string): (csv: Option<string>)
    requires data.Some? && data.value != [] ==> forall k :: k in headers <==> k in data.value[0]
    ensures data.None? || data.value == [] <==> csv.None?
    ensures csv.Some? ==>
      var head := JoinFields(headers) + "\n";
      |head| <= |csv.value| && csv.value[..|head|] == head
  {
    if data.None? || data.value == [] then None
    else Some(JoinFields(headers) + "\n" + Records(data.value, headers, numText))
  }

  // ---------------------------------------------------------------------------------------
  // A reader for one record
  // ---------------------------------------------------------------------------------------

  /** Characters up to the next comma. */
  function ParseUnquoted(t: string): (r: (string, string))
    ensures |r.1| <= |t|
  {
    if t == [] || t[0] == ',' then ("", t)
    else var r := ParseUnquoted(t[1..]); ([t[0]] + r.0, r.1)
  }

  /** The inside of a quoted field, after its opening quote: `""` is one quote, a lone `"`
      closes it. */
  function ParseQuoted(t: string): (r: (string, string))
    ensures |r.1| <= |t|
  {
    if t == [] then ("", [])
    else if t[0] == '"' then
      if |t| >= 2 && t[1] == '"' then var r := ParseQuoted(t[2..]); ("\"" + r.0, r.1)
      else ("", t[1..])
    else var r := ParseQuoted(t[1..]); ([t[0]] + r.0, r.1)
  }

  function ParseField(t: string): (r: (string, string))
    ensures |r.1| <= |t|
  {
    if |t| > 0 && t[0] == '"' then ParseQuoted(t[1..]) else ParseUnquoted(t)
  }

  /** The fields of a record without its line feed. */
  function ParseRecord(t: string): (fs: seq<string>)
    ensures |fs| > 0
    decreases |t|
  {
    var r := ParseField(t);
    if r.1 != [] && r.1[0] == ',' then [r.0] + ParseRecord(r.1[1..]) else [r.0]
  }

  /** True when `rest` is the end of the record or starts the next field. */
  predicate AtBoundary(rest: string) {
    rest == [] || rest[0] == ','
  }

  lemma {:induction false} UnquotedRoundTrip(s: string, rest: string)
    requires ',' !in s
    requires AtBoundary(rest)
    ensures ParseUnquoted(s + rest) == (s, rest)
  {
    if s != [] {
      assert (s + rest)[0] == s[0] && s[0] != ',';
      assert (s + rest)[1..] == s[1..] + rest;
      UnquotedRoundTrip(s[1..], rest);
      assert s == [s[0]] + s[1..];
    } else {
      assert s + rest == rest;
    }
  }

  lemma {:induction false} QuotedRoundTrip(s: string, rest: string)
    requires AtBoundary(rest)
    ensures ParseQuoted(Escape(s) + "\"" + rest) == (s, rest)
  {
    var t := Escape(s) + "\"" + rest;
    if s == [] {
      assert t == "\"" + rest;
      assert t[0] == '"' && !(|t| >= 2 && t[1] == '"');
      assert t[1..] == rest;
    } else if s[0] == '"' {
      var t' := Escape(s[1..]) + "\"" + rest;
      assert Escape(s) == "\"\"" + Escape(s[1..]);
      assert t == "\"\"" + t';
      assert t[0] == '"' && t[1] == '"' && t[2..] == t';
      QuotedRoundTrip(s[1..], rest);
      assert s == "\"" + s[1..];
    } else {
      var t' := Escape(s[1..]) + "\"" + rest;
      assert Escape(s) == [s[0]] + Escape(s[1..]);
      assert t == [s[0]] + t';
      assert t[0] == s[0] && t[1..] == t';
      QuotedRoundTrip(s[1..], rest);
      assert s == [s[0]] + s[1..];
    }
  }

  /** A host number text never holds a comma or a quote. */
  ghost predicate PlainNumbers(numText: real -> string) {
    forall x :: ',' !in numText(x) && '"' !in numText(x)
  }

  /** Reading a cell back gives the text of its value, whatever follows it in the record. */
  lemma FieldRoundTrip(v: Value, rest: string, numText: real -> string)
    requires PlainNumbers(numText)
    requires AtBoundary(rest)
    ensures ParseField(CsvField(v, numText) + rest) == (Text(v, numText), rest)
  {
    if v.Str? && NeedsQuotes(v.s) {
      QuotedFieldRoundTrip(v.s, rest, numText);
    } else {
      PlainFieldRoundTrip(v, rest, numText);
    }
  }

  lemma QuotedFieldRoundTrip(s: string, rest: string, numText: real -> string)
    requires NeedsQuotes(s)
    requires AtBoundary(rest)
    ensures ParseField(CsvField(Str(s), numText) + rest) == (Text(Str(s), numText), rest)
  {
    QuotedRoundTrip(s, rest);
    assert CsvField(Str(s), numText) + rest == "\"" + (Escape(s) + "\"" + rest);
    assert Text(Str(s), numText) == s;
  }

  lemma PlainFieldRoundTrip(v: Value, rest: string, numText: real -> string)
    requires PlainNumbers(numText)
    requires AtBoundary(rest)
    requires !(v.Str? && NeedsQuotes(v.s))
    ensures ParseField(CsvField(v, numText) + rest) == (Text(v, numText), rest)
  {
    var f := CsvField(v, numText);
    assert ',' !in f && '"' !in f by {
      if Truthy(v) {
        assert f == JsString(v, numText);
      }
    }
    UnquotedRoundTrip(f, rest);
  }

  /** The cells of a list of values, one per value. */
  function CellsOf(vs: seq<Value>, numText: real -> string): (cs: seq<string>)
    ensures |cs| == |vs|
    ensures forall i :: 0 <= i < |vs| ==> cs[i] == CsvField(vs[i], numText)
  {
    if vs == [] then [] else [CsvField(vs[0], numText)] + CellsOf(vs[1..], numText)
  }

  /** The texts of a list of values, one per value. */
  function TextsOf(vs: seq<Value>, numText: real -> string): (ts: seq<string>)
    ensures |ts| == |vs|
    ensures forall i :: 0 <= i < |vs| ==> ts[i] == Text(vs[i], numText)
  {
    if vs == [] then [] else [Text(vs[0], numText)] + TextsOf(vs[1..], numText)
  }

  /** Reading a joined line of cells gives back the text of every value, one field per cell. */
  lemma {:induction false} JoinRoundTrip(vs: seq<Value>, numText: real -> string)
    requires PlainNumbers(numText)
    requires vs != []
    ensures ParseRecord(JoinFields(CellsOf(vs, numText))) == TextsOf(vs, numText)
  {
    var cells := CellsOf(vs, numText);
    if |vs| == 1 {
      FieldRoundTrip(vs[0], "", numText);
      assert cells[0] + "" == cells[0];
    } else {
      var tail := JoinFields(cells[1..]);
      assert cells[1..] == CellsOf(vs[1..], numText);
      FieldRoundTrip(vs[0], "," + tail, numText);
      assert JoinFields(cells) == cells[0] + ("," + tail);
      JoinRoundTrip(vs[1..], numText);
      assert ("," + tail)[1..] == tail;
    }
  }

  /** Every record, taken without its line feed, reads back as the texts of the row's values
      under the headers, one field per header. Where a record ends is the business of
      `ExportLines` and `LineFeedSplitsRecord` below. */
  lemma RecordRoundTrip(row: Row, headers: seq<string>, numText: real -> string)
    requires PlainNumbers(numText)
    requires headers != []
    ensures ParseRecord(JoinFields(Cells(row, headers, numText))) == Texts(row, headers, numText)
  {
    var vs := seq(|headers|, i requires 0 <= i < |headers| => Get(row, headers[i]));
    JoinRoundTrip(vs, numText);
    assert Cells(row, headers, numText) == CellsOf(vs, numText);
    assert Texts(row, headers, numText) == TextsOf(vs, numText);
  }

  // ---------------------------------------------------------------------------------------
  // The export read line by line
  // ---------------------------------------------------------------------------------------

  /** `t.split('\n')`: the pieces between line feeds, one more than there are line feeds. */
  function SplitLines(t: string): (ls: seq<string>)
    ensures |ls| > 0
    decreases |t|
  {
    if t == [] then [""]
    else
      var r := SplitLines(t[1..]);
      if t[0] == '\n' then [""] + r else [[t[0]] + r[0]] + r[1..]
  }

  /** Splitting gives one more piece than there are line feeds. */
  lemma {:induction false} SplitCount(t: string)
    ensures |SplitLines(t)| == multiset(t)['\n'] + 1
    decreases |t|
  {
    if t != [] {
      SplitCount(t[1..]);
      assert t == [t[0]] + t[1..];
    }
  }

  /** A non-empty export is a chain of records, each ended by its line feed. */
  lemma RecordsUnfold(data: seq<Row>, headers: seq<string>, numText: real -> string)
    requires data != []
    ensures Records(data, headers, numText)
      == JoinFields(Cells(data[0], headers, numText)) + "\n" + Records(data[1..], headers, numText)
  {
  }

  lemma {:induction false} SplitAfterLine(a: string, rest: string)
    requires '\n' !in a
    ensures SplitLines(a + "\n" + rest) == [a] + SplitLines(rest)
  {
    var t := a + "\n" + rest;
    if a == [] {
      assert t == "\n" + rest && t[1..] == rest;
    } else {
      assert t[0] == a[0] && t[1..] == a[1..] + "\n" + rest;
      SplitAfterLine(a[1..], rest);
      assert a == [a[0]] + a[1..];
    }
  }

  lemma {:induction false} JoinNoLineFeed(fs: seq<string>)
    requires forall k :: 0 <= k < |fs| ==> '\n' !in fs[k]
    ensures '\n' !in JoinFields(fs)
  {
    if |fs| > 1 {
      JoinNoLineFeed(fs[1..]);
    }
  }

  /** A joined line holds at least as many of any character as each of its fields. */
  lemma {:induction false} JoinKeepsChars(fs: seq<string>, k: nat, c: char)
    requires k < |fs|
    ensures multiset(JoinFields(fs))[c] >= multiset(fs[k])[c]
  {
    if |fs| > 1 && k > 0 {
      JoinKeepsChars(fs[1..], k - 1, c);
      assert JoinFields(fs) == fs[0] + "," + JoinFields(fs[1..]);
    } else if |fs| > 1 {
      assert JoinFields(fs) == fs[0] + ("," + JoinFields(fs[1..]));
    }
  }

  /** Escaping only touches quotes. */
  lemma {:induction false} EscapeKeeps(s: string, c: char)
    requires c != '"'
    ensures c in Escape(s) <==> c in s
  {
    if s != [] {
      EscapeKeeps(s[1..], c);
      assert s == [s[0]] + s[1..];
    }
  }

  /** The records line by line: the joined cells of each row, in row order. */
  function RecordLines(data: seq<Row>, headers: seq<string>, numText: real -> string): (ls: seq<string>)
    ensures |ls| == |data|
    ensures forall i :: 0 <= i < |data| ==> ls[i] == JoinFields(Cells(data[i], headers, numText))
  {
    if data == [] then []
    else [JoinFields(Cells(data[0], headers, numText))] + RecordLines(data[1..], headers, numText)
  }

  /** No cell written for the rows holds a line feed. */
  predicate NoLineFeedCells(data: seq<Row>, headers: seq<string>, numText: real -> string) {
    forall i, k :: 0 <= i < |data| && 0 <= k < |headers| ==>
      '\n' !in CsvField(Get(data[i], headers[k]), numText)
  }

  lemma RecordsSplit(data: seq<Row>, headers: seq<string>, numText: real -> string)
    requires NoLineFeedCells(data, headers, numText)
    ensures SplitLines(Records(data, headers, numText)) == RecordLines(data, headers, numText) + [""]
  {
    var lines := RecordLines(data, headers, numText);
    forall i | 0 <= i < |lines|
      ensures '\n' !in lines[i]
    {
      var cells := Cells(data[i], headers, numText);
      assert forall k :: 0 <= k < |cells| ==> '\n' !in cells[k];
      JoinNoLineFeed(cells);
    }
    RecordsIsChain(data, headers, numText);
    ChainSplit(lines);
  }

  /** Lines without line feeds split back out of their chain. */
  lemma {:induction false} ChainSplit(lines: seq<string>)
    requires forall i :: 0 <= i < |lines| ==> '\n' !in lines[i]
    ensures SplitLines(Chain(lines)) == lines + [""]
  {
    if lines != [] {
      SplitAfterLine(lines[0], Chain(lines[1..]));
      ChainSplit(lines[1..]);
      assert lines == [lines[0]] + lines[1..];
    }
  }

  /** When neither the header names nor any cell hold a line feed, reading the export line by
      line gives the header line, then one line per row holding exactly that row's record,
      then the empty piece after the final line feed. */
  lemma ExportLines(data: seq<Row>, headers: seq<string>, numText: real -> string)
    requires data != [] && forall k :: k in headers <==> k in data[0]
    requires forall k :: 0 <= k < |headers| ==> '\n' !in headers[k]
    requires NoLineFeedCells(data, headers, numText)
    ensures SplitLines(ExportCsv(Some(data), headers, numText).value)
      == [JoinFields(headers)] + RecordLines(data, headers, numText) + [""]
  {
    JoinNoLineFeed(headers);
    RecordsSplit(data, headers, numText);
    SplitAfterLine(JoinFields(headers), Records(data, headers, numText));
  }

  /** Lines each ended by a line feed. */
  function Chain(lines: seq<string>): string {
    if lines == [] then "" else lines[0] + "\n" + Chain(lines[1..])
  }

  lemma {:induction false} RecordsIsChain(data: seq<Row>, headers: seq<string>, numText: real -> string)
    ensures Records(data, headers, numText) == Chain(RecordLines(data, headers, numText))
  {
    if data != [] {
      RecordsUnfold(data, headers, numText);
      RecordsIsChain(data[1..], headers, numText);
      assert RecordLines(data, headers, numText)[1..] == RecordLines(data[1..], headers, numText);
    }
  }

  /** Every line of a chain adds its line feed, and line `i` adds the ones it holds. */
  lemma {:induction false} ChainLineFeeds(lines: seq<string>, i: nat)
    requires i < |lines|
    ensures multiset(Chain(lines))['\n'] >= |lines| + multiset(lines[i])['\n']
  {
    LineFeedsOfChain(lines[0], Chain(lines[1..]));
    if i == 0 {
      if |lines| > 1 {
        ChainLineFeeds(lines[1..], 0);
      }
    } else {
      assert lines[1..][i - 1] == lines[i];
      ChainLineFeeds(lines[1..], i - 1);
    }
  }

  lemma LineFeedsOfChain(a: string, b: string)
    ensures multiset(a + "\n" + b)['\n'] == multiset(a)['\n'] + 1 + multiset(b)['\n']
  {
    assert multiset(a + "\n" + b) == multiset(a) + multiset("\n") + multiset(b);
  }

  /** The record of a row whose value holds a line feed holds one too. */
  lemma CellLineFeed(row: Row, headers: seq<string>, numText: real -> string, k: nat, s: string)
    requires k < |headers| && Get(row, headers[k]) == Str(s) && '\n' in s
    ensures multiset(JoinFields(Cells(row, headers, numText)))['\n'] >= 1
  {
    EscapeKeeps(s, '\n');
    var cells := Cells(row, headers, numText);
    assert '\n' in multiset(cells[k]);
    JoinKeepsChars(cells, k, '\n');
  }

  /** A text value holding a line feed, quoted or not, is written with its line feed, so reading
      the export line by line finds more pieces than the header, the records and the final
      empty piece: the record is split. */
  lemma LineFeedSplitsRecord(data: seq<Row>, headers: seq<string>, numText: real -> string,
                             i: nat, k: nat, s: string)
    requires data != [] && forall h :: h in headers <==> h in data[0]
    requires i < |data| && k < |headers|
    requires Get(data[i], headers[k]) == Str(s) && '\n' in s
    ensures |SplitLines(ExportCsv(Some(data), headers, numText).value)| > |data| + 2
  {
    CellLineFeed(data[i], headers, numText, k, s);
    RecordsIsChain(data, headers, numText);
    ChainLineFeeds(RecordLines(data, headers, numText), i);
    LineFeedsOfChain(JoinFields(headers), Records(data, headers, numText));
    SplitCount(ExportCsv(Some(data), headers, numText).value);
  }

  /** A value with a line feed but no comma or quote is written as is (unlike rule 6 of section
      2 of RFC 4180, which quotes it). */
  lemma LineBreaksNotQuoted(s: string, numText: real -> string)
    requires s != [] && !NeedsQuotes(s)
    ensures CsvField(Str(s), numText) == s
  {
  }

  lemma CsvQuotingExamples(numText: real -> string)
    ensures CsvField(Str("a,b"), numText) == "\"a,b\""
    ensures CsvField(Str("x\"y"), numText) == "\"x\"\"y\""
  {
    assert "a,b"[1] == ',';
    assert "x\"y"[1] == '"';
    assert Escape("a,b") == "a,b";
    assert Escape("x\"y") == "x\"\"y" by {
      assert Escape("y") == "y";
      assert "x\"y"[1..] == "\"y";
      assert Escape("\"y") == "\"\"y";
    }
  }

  lemma CsvPlainExamples(numText: real -> string)
    ensures CsvField(Str("two\nlines"), numText) == "two\nlines"
    ensures CsvField(Num(0.0), numText) == ""
    ensures CsvField(Bool(true), numText) == "true"
  {
    assert !NeedsQuotes("two\nlines");
  }
}

=== FILE: grid_fields.dfy ===
/** Grid-level field decisions from enhanced_grid.js and tablez_grid.js: primary link field
    detection, the fields offered by the add-row dialogs, the values they copy into a new row,
    and the columns of the dummy row that hosts the Add button. */
module GridFields {
  import opened Wrappers
  import opened Seqs
  import opened Values
  import opened ConfigMerge
  import GridUtils

  const PrimaryLinkKey: string := "primary_link_field"

  /** `detect_primary_link_field`: a truthy setting is kept; otherwise the first `Link` field of
      the child doctype is adopted; with none (or no meta) the configuration is unchanged. */
  function DetectPrimaryLinkField(c: Config, meta: Meta): (r: Config)
    ensures SettingTruthy(Lookup(c, PrimaryLinkKey)) ==> r == c
    ensures !SettingTruthy(Lookup(c, PrimaryLinkKey)) ==>
      match GridUtils.PrimaryLinkField(meta)
      case Some(name) => r == c[PrimaryLinkKey := Text(name)]
      case None => r == c
    ensures forall k :: k in c && k != PrimaryLinkKey ==> k in r && r[k] == c[k]
  {
    if SettingTruthy(Lookup(c, PrimaryLinkKey)) then c
    else
      match GridUtils.PrimaryLinkField(meta)
      case Some(name) => c[PrimaryLinkKey := Text(name)]
      case None => c
  }

  /** Detection runs once in effect: a second call changes nothing. */
  lemma DetectIdempotent(c: Config, meta: Meta)
    ensures DetectPrimaryLinkField(DetectPrimaryLinkField(c, meta), meta) == DetectPrimaryLinkField(c, meta)
  {
    var r := DetectPrimaryLinkField(c, meta);
    if !SettingTruthy(Lookup(c, PrimaryLinkKey)) && GridUtils.PrimaryLinkField(meta).Some? {
      var name := GridUtils.PrimaryLinkField(meta).value;
      assert Lookup(r, PrimaryLinkKey) == Text(name);
    }
  }

  /** After detection the setting names a `Link` field whenever the child doctype has one. */
  lemma DetectFindsLink(c: Config, fields: seq<Field>, i: nat)
    requires !SettingTruthy(Lookup(c, PrimaryLinkKey))
    requires i < |fields| && IsLink(fields[i])
    ensures var r := DetectPrimaryLinkField(c, Some(fields));
            exists j :: 0 <= j < |fields| && IsLink(fields[j]) && Lookup(r, PrimaryLinkKey) == Text(fields[j].fieldname)
  {
    var j := FindIndex(fields, IsLink);
    assert j < |fields|;
  }

  // ---------------------------------------------------------------------------------------
  // Add-row dialogs
  // ---------------------------------------------------------------------------------------

  /** The filter of `add_row_with_dialog`. */
  predicate OfferedByAddRowDialog(f: Field) {
    !f.hidden && !f.readOnly && f.fieldtype != "Table"
  }

  /** `add_row_with_dialog` reads `meta.fields` without a check, so a missing meta throws
      (`None` here); otherwise the visible, editable, non-table fields in meta order. */
  function AddRowDialogFields(meta: Meta): (r: Option<seq<Field>>)
    ensures r.None? <==> meta.None?
    ensures r.Some? ==> r.value == Filter(meta.value, OfferedByAddRowDialog)
    ensures r.Some? ==> forall f :: f in r.value <==> f in meta.value && OfferedByAddRowDialog(f)
  {
    match meta
    case None => None
    case Some(fields) =>
      var r := Filter(fields, OfferedByAddRowDialog);
      assert forall f :: f in r <==> f in fields && OfferedByAddRowDialog(f) by {
        forall f
          ensures f in r <==> f in fields && OfferedByAddRowDialog(f)
        {
          FilterMembers(fields, OfferedByAddRowDialog, f);
        }
      }
      Some(r)
  }

  /** The framework's own columns, which `show_add_dialog` never offers. */
  const InternalFields: set<string> := {"name", "idx", "parent", "parenttype", "parentfield", "docstatus"}

  predicate NotInternal(f: Field) {
    f.fieldname !in InternalFields
  }

  /** Also skips hidden and read-only fields, as tablez_grid.js does. */
  predicate OfferedByGridDialog(f: Field) {
    NotInternal(f) && !f.readOnly && !f.hidden
  }

  /** `show_add_dialog` of enhanced_grid.js: every field except the internal ones; nothing
      (a message) when the meta is missing. */
  function EnhancedAddDialogFields(meta: Meta): (r: Option<seq<Field>>)
    ensures r.None? <==> meta.None?
    ensures r.Some? ==> r.value == Filter(meta.value, NotInternal)
  {
    match meta
    case None => None
    case Some(fields) => Some(Filter(fields, NotInternal))
  }

  /** `show_add_dialog` of tablez_grid.js: the internal, read-only and hidden fields skipped. */
  function GridAddDialogFields(meta: Meta): (r: Option<seq<Field>>)
    ensures r.None? <==> meta.None?
    ensures r.Some? ==> r.value == Filter(meta.value, OfferedByGridDialog)
  {
    match meta
    case None => None
    case Some(fields) => Some(Filter(fields, OfferedByGridDialog))
  }

  /** A field offered by enhanced_grid.js's dialog is left out by tablez_grid.js's exactly when
      it is hidden or read-only; a field is in the former exactly when it is in the meta and not
      internal. */
  lemma AddDialogsDiffer(fields: seq<Field>, f: Field)
    ensures f in EnhancedAddDialogFields(Some(fields)).value <==> f in fields && f.fieldname !in InternalFields
    ensures f in GridAddDialogFields(Some(fields)).value <==>
      f in EnhancedAddDialogFields(Some(fields)).value && !f.hidden && !f.readOnly
  {
    FilterMembers(fields, NotInternal, f);
    FilterMembers(fields, OfferedByGridDialog, f);
  }

  /** The `name` and `idx` columns are never offered, even when visible and editable. */
  lemma InternalNeverOffered(fields: seq<Field>)
    ensures forall i :: 0 <= i < |GridAddDialogFields(Some(fields)).value| ==>
      GridAddDialogFields(Some(fields)).value[i].fieldname !in InternalFields
    ensures forall i :: 0 <= i < |EnhancedAddDialogFields(Some(fields)).value| ==>
      EnhancedAddDialogFields(Some(fields)).value[i].fieldname !in InternalFields
  {
  }

  /** The primary action of both dialogs: every entered value that is not null or undefined is
      written to the new row; everything else of the new row is kept. */
  function ApplyDialogValues(newRow: Row, values: Row): (r: Row)
    ensures r.Keys == newRow.Keys + (set k | k in values && values[k] != Null)
    ensures forall k :: k in values && values[k] != Null ==> r[k] == values[k]
    ensures forall k :: k in newRow && (k !in values || values[k] == Null) ==> r[k] == newRow[k]
  {
    map k | k in newRow.Keys + values.Keys && (k in newRow || values[k] != Null) ::
      if k in values && values[k] != Null then values[k] else newRow[k]
  }

  /** The primary action of `add_row_with_dialog`: only truthy entered values are written. */
  function ApplyTruthyValues(newRow: Row, values: Row): (r: Row)
    ensures r.Keys == newRow.Keys + (set k | k in values && Truthy(values[k]))
    ensures forall k :: k in values && Truthy(values[k]) ==> r[k] == values[k]
    ensures forall k :: k in newRow && (k !in values || !Truthy(values[k])) ==> r[k] == newRow[k]
  {
    map k | k in newRow.Keys + values.Keys && (k in newRow || Truthy(values[k])) ::
      if k in values && Truthy(values[k]) then values[k] else newRow[k]
  }

  /** The two dialogs agree unless a value is entered that is falsy without being null: a 0,
      an empty text or `false` is written by `show_add_dialog` and dropped by
      `add_row_with_dialog`. */
  lemma DialogValuesDiffer(newRow: Row, values: Row, k: string)
    ensures (forall j :: j in values ==> values[j] == Null || Truthy(values[j])) ==>
      ApplyTruthyValues(newRow, values) == ApplyDialogValues(newRow, values)
    ensures k !in newRow ==>
      && ApplyDialogValues(newRow, map[k := Num(0.0)])[k] == Num(0.0)
      && k !in ApplyTruthyValues(newRow, map[k := Num(0.0)])
  {
    if forall j :: j in values ==> values[j] == Null || Truthy(values[j]) {
      var a := ApplyTruthyValues(newRow, values);
      var b := ApplyDialogValues(newRow, values);
      assert a.Keys == b.Keys;
    }
  }

  // ---------------------------------------------------------------------------------------
  // The dummy Add row
  // ---------------------------------------------------------------------------------------

  /** A cell of the first data row: its class attribute and whether it is visible. */
  datatype SourceCol = SourceCol(colClass: string, visible: bool)

  /** A cell of the dummy row: an empty copy of a data cell, or the Add button cell. */
  datatype DummyCell = Spacer(colClass: string) | AddButton

  function Spacers(cols: seq<SourceCol>): (r: seq<DummyCell>)
    ensures |r| == Count(cols, (c: SourceCol) => c.visible)
    ensures forall i :: 0 <= i < |r| ==> r[i].Spacer?
  {
    if cols == [] then []
    else if cols[0].visible then [Spacer(cols[0].colClass)] + Spacers(cols[1..])
    else Spacers(cols[1..])
  }

  /** `setup_add_button` of enhanced_grid.js: nothing unless `show_add_button`; otherwise an
      empty copy of every visible cell of the first data row except the last, then one Add
      button cell. With no data row there is only the Add button cell. */
  function DummyAddRow(showAddButton: bool, firstRow: seq<SourceCol>): (r: Option<seq<DummyCell>>)
    ensures r.None? <==> !showAddButton
    ensures r.Some? ==> |r.value| > 0 && r.value[|r.value| - 1] == AddButton
    ensures r.Some? && firstRow == [] ==> r.value == [AddButton]
    ensures r.Some? && firstRow != [] ==>
      r.value[..|r.value| - 1] == Spacers(firstRow[..|firstRow| - 1])
  {
    if !showAddButton then None
    else if firstRow == [] then Some([AddButton])
    else
      var r := Spacers(firstRow[..|firstRow| - 1]) + [AddButton];
      assert r[..|r| - 1] == Spacers(firstRow[..|firstRow| - 1]);
      Some(r)
  }

  /** Exactly one Add button, whatever the data row looks like, and one spacer per visible cell
      other than the last. */
  lemma {:induction false} DummyRowOneButton(firstRow: seq<SourceCol>)
    requires firstRow != []
    ensures var r := DummyAddRow(true, firstRow).value;
            && Count(r, (c: DummyCell) => c == AddButton) == 1
            && |r| == 1 + Count(firstRow[..|firstRow| - 1], (c: SourceCol) => c.visible)
  {
    var s := Spacers(firstRow[..|firstRow| - 1]);
    var r := DummyAddRow(true, firstRow).value;
    assert r == s + [AddButton];
    CountAppendOne(s, AddButton, (c: DummyCell) => c == AddButton);
    NoButtonAmongSpacers(s);
  }

  lemma {:induction false} CountAppendOne<T>(s: seq<T>, x: T, p: T -> bool)
    ensures Count(s + [x], p) == Count(s, p) + (if p(x) then 1 else 0)
  {
    if s == [] {
      assert s + [x] == [x];
    } else {
      assert (s + [x])[1..] == s[1..] + [x];
      CountAppendOne(s[1..], x, p);
    }
  }

  lemma {:induction false} NoButtonAmongSpacers(s: seq<DummyCell>)
    requires forall i :: 0 <= i < |s| ==> s[i].Spacer?
    ensures Count(s, (c: DummyCell) => c == AddButton) == 0
  {
    if s != [] {
      NoButtonAmongSpacers(s[1..]);
    }
  }
}

=== FILE: grid_row.dfy ===
/** Row-level behaviour from enhanced_grid_row.js: the setup guard, the unsaved marker, the
    row-click dispatcher and its tooltip, and the Edit/Delete buttons of the actions column. */
module GridRow {
  import opened Wrappers
  import opened Seqs
  import opened Values

  /** The options a row reads from its grid's configuration. Every string option is "" when it
      is falsy (unset, null or empty), since the source only reads them for truthiness or
      through `|| default`. */
  datatype RowConfig = RowConfig(
    enabled: bool,
    enableRowClick: bool,
    primaryLinkField: string,
    rowClickAction: string,
    rowShiftClickAction: string,
    rowClickTooltip: string,
    showEditButton: bool,
    showDeleteButton: bool,
    actionsColumnWidth: Value)

  /** The grid a row belongs to: whether its wrapper carries the `tablez-enhanced-grid` marker
      class, and its configuration if it has one. */
  datatype GridState = GridState(hasMarker: bool, config: Option<RowConfig>)

  /** The last cell of a row, where the actions column lives: whether it carries the
      `tablez-actions-column` class, whether it still holds the host's own content, the width
      forced on it, and how many Edit and Delete buttons it holds. */
  datatype LastCol = LastCol(actionsClass: bool, hostContent: bool, width: Option<Value>, editButtons: nat, deleteButtons: nat)

  /** The parts of a grid row the setup reads and changes. `doc` is absent on the heading row. */
  datatype RowState = RowState(
    doc: Option<Row>,
    hasElement: bool,
    setupDone: bool,
    unsavedClass: bool,
    title: Option<string>,
    clickListeners: nat,
    lastCol: Option<LastCol>)

  /** `x || d` on a string option. */
  function Or(s: string, d: string): (r: string)
    ensures d != "" ==> r != ""
    ensures s != "" ==> r == s
  {
    if s != "" then s else d
  }

  const OpenEditor: string := "open_editor"
  const OpenDocument: string := "open_document"

  // ---------------------------------------------------------------------------------------
  // Row click
  // ---------------------------------------------------------------------------------------

  /** The action a click runs: `row_shift_click_action` (default `open_editor`) with Shift,
      `row_click_action` (default `open_document`) without. */
  function SelectAction(cfg: RowConfig, shift: bool): (action: string)
    ensures action != ""
    ensures shift && cfg.rowShiftClickAction == "" ==> action == OpenEditor
    ensures !shift && cfg.rowClickAction == "" ==> action == OpenDocument
    ensures shift && cfg.rowShiftClickAction != "" ==> action == cfg.rowShiftClickAction
    ensures !shift && cfg.rowClickAction != "" ==> action == cfg.rowClickAction
  {
    if shift then Or(cfg.rowShiftClickAction, OpenEditor) else Or(cfg.rowClickAction, OpenDocument)
  }

  /** The click handler is installed only on a data row, with row click on and a primary link
      field configured. */
  predicate InstallsClickHandler(doc: Option<Row>, cfg: RowConfig) {
    doc.Some? && cfg.enableRowClick && cfg.primaryLinkField != ""
  }

  datatype ClickEvent = ClickEvent(insideButton: bool, shift: bool, ctrl: bool, metaKey: bool)

  /** What a click ends in. `Throws` is the `TypeError` of reading `fields` of a missing meta. */
  datatype ClickOutcome = Ignored | ToggleEditor | NoNavigation | Throws | Navigate(doctype: string, name: Value, newTab: bool)

  /** The capture-phase click handler: clicks inside a button are left alone; `open_editor`
      only shows the row editor; any other action, `custom` included, opens the document the
      primary link field points at, when the link value is truthy and that field of the meta
      has `options`. Ctrl or Meta opens it in a new tab. */
  function OnClick(ev: ClickEvent, cfg: RowConfig, doc: Row, meta: Meta): (o: ClickOutcome)
    ensures ev.insideButton <==> o == Ignored
    ensures o == ToggleEditor <==> !ev.insideButton && SelectAction(cfg, ev.shift) == OpenEditor
    ensures o.Navigate? <==>
      && !ev.insideButton && SelectAction(cfg, ev.shift) != OpenEditor
      && Truthy(Get(doc, cfg.primaryLinkField)) && meta.Some?
      && (var f := Find(meta.value, (f: Field) => f.fieldname == cfg.primaryLinkField); f.Some? && f.value.options != "")
    ensures o.Navigate? ==>
      && o.doctype == Find(meta.value, (f: Field) => f.fieldname == cfg.primaryLinkField).value.options
      && o.name == Get(doc, cfg.primaryLinkField)
      && (o.newTab <==> ev.ctrl || ev.metaKey)
    ensures o == Throws <==>
      !ev.insideButton && SelectAction(cfg, ev.shift) != OpenEditor && Truthy(Get(doc, cfg.primaryLinkField)) && meta.None?
  {
    if ev.insideButton then Ignored
    else if SelectAction(cfg, ev.shift) == OpenEditor then ToggleEditor
    else
      var linkValue := Get(doc, cfg.primaryLinkField);
      if !Truthy(linkValue) then NoNavigation
      else if meta.None? then Throws
      else
        match Find(meta.value, (f: Field) => f.fieldname == cfg.primaryLinkField)
        case None => NoNavigation
        case Some(f) =>
          if f.options == "" then NoNavigation
          else Navigate(f.options, linkValue, ev.ctrl || ev.metaKey)
  }

  /** With the default actions a plain click opens the linked document and a Shift-click edits
      the row. */
  lemma DefaultClickActions(cfg: RowConfig, doc: Row, fields: seq<Field>, f: Field)
    requires cfg.rowClickAction == "" && cfg.rowShiftClickAction == ""
    requires Truthy(Get(doc, cfg.primaryLinkField))
    requires Find(fields, (g: Field) => g.fieldname == cfg.primaryLinkField) == Some(f) && f.options != ""
    ensures OnClick(ClickEvent(false, false, false, false), cfg, doc, Some(fields))
            == Navigate(f.options, Get(doc, cfg.primaryLinkField), false)
    ensures OnClick(ClickEvent(false, true, true, false), cfg, doc, Some(fields)) == ToggleEditor
  {
  }

  /** What the tooltip says an action does. */
  function Phrase(action: string, primaryLink: string): (p: string)
    ensures p == "edit row" <==> action == OpenEditor
  {
    if action == OpenEditor then "edit row"
    else
      assert ("open " + primaryLink)[0] == 'o';
      "open " + primaryLink
  }

  /** The row's `title`: a custom tooltip wins; otherwise it names both click actions. */
  function Tooltip(cfg: RowConfig): (t: string)
    ensures cfg.rowClickTooltip != "" ==> t == cfg.rowClickTooltip
    ensures cfg.rowClickTooltip == "" ==>
      t == "Click to " + Phrase(SelectAction(cfg, false), cfg.primaryLinkField)
           + ", Shift+Click to " + Phrase(SelectAction(cfg, true), cfg.primaryLinkField)
  {
    if cfg.rowClickTooltip != "" then cfg.rowClickTooltip
    else
      var normalText := Phrase(Or(cfg.rowClickAction, OpenDocument), cfg.primaryLinkField);
      var shiftText := Phrase(Or(cfg.rowShiftClickAction, OpenEditor), cfg.primaryLinkField);
      "Click to " + normalText + ", Shift+Click to " + shiftText
  }

  /** The generated tooltip tells the truth: it says "edit row" for a modifier exactly when a
      click with that modifier opens the row editor. */
  lemma TooltipMatchesClick(cfg: RowConfig, doc: Row, meta: Meta, ev: ClickEvent)
    requires !ev.insideButton
    ensures (Phrase(SelectAction(cfg, ev.shift), cfg.primaryLinkField) == "edit row")
            <==> OnClick(ev, cfg, doc, meta) == ToggleEditor
  {
  }

  lemma DefaultTooltip(cfg: RowConfig)
    requires cfg.rowClickTooltip == "" && cfg.rowClickAction == "" && cfg.rowShiftClickAction == ""
    requires cfg.primaryLinkField == "item"
    ensures Tooltip(cfg) == "Click to open item, Shift+Click to edit row"
  {
  }

  // ---------------------------------------------------------------------------------------
  // The actions column
  // ---------------------------------------------------------------------------------------

  /** The link field the actions act on: the primary link field when it names a `Link` field,
      else the first `Link` field, else none (and then no actions column is built). */
  function ChooseActionLinkField(primary: string, fields: seq<Field>): (f: Option<Field>)
    ensures f.Some? ==> f.value in fields && IsLink(f.value)
    ensures f.None? <==> forall i :: 0 <= i < |fields| ==> !IsLink(fields[i])
    ensures primary != "" && (exists i :: 0 <= i < |fields| && fields[i].fieldname == primary && IsLink(fields[i])) ==>
      f.Some? && f.value.fieldname == primary
    ensures f.Some? && f.value.fieldname != primary ==> f == Find(fields, IsLink)
  {
    var byName := if primary != "" then Find(fields, (g: Field) => g.fieldname == primary && IsLink(g)) else None;
    if byName.Some? then byName else Find(fields, IsLink)
  }

  /** `actions_column_width || '120px'`. */
  function DataColumnWidth(token: Value): (w: Value)
    ensures Truthy(w)
    ensures Truthy(token) ==> w == token
    ensures !Truthy(token) ==> w == Str("120px")
  {
    if Truthy(token) then token else Str("120px")
  }

  /** One pass of the button logic over the last cell. `recheck` selects the corrected
      behaviour, where the Edit button check is made again after the cell is cleared; the
      source reuses the value read before clearing. */
  function BuildButtons(cfg: RowConfig, hasLink: bool, c: LastCol, recheck: bool): (r: LastCol)
    ensures r.editButtons > c.editButtons ==> cfg.showEditButton && hasLink && c.editButtons == 0 && r.editButtons == 1
    ensures r.deleteButtons > c.deleteButtons ==> cfg.showDeleteButton && c.deleteButtons == 0 && r.deleteButtons == 1
    ensures r.editButtons <= c.editButtons + 1 && r.deleteButtons <= c.deleteButtons + 1
    ensures c.deleteButtons == 0 ==> r.actionsClass && !r.hostContent && r.width == Some(DataColumnWidth(cfg.actionsColumnWidth))
    ensures c.deleteButtons == 0 ==> r.deleteButtons == (if cfg.showDeleteButton then 1 else 0)
    ensures c.deleteButtons > 0 ==> r.deleteButtons == c.deleteButtons && r.actionsClass == c.actionsClass
  {
    var hasDelete := c.deleteButtons > 0;
    var hasEdit := c.editButtons > 0;
    if !(!hasDelete || (hasLink && !hasEdit)) then c
    else
      var cleared := if !hasDelete then LastCol(true, false, Some(DataColumnWidth(cfg.actionsColumnWidth)), 0, 0) else c;
      var editPresent := if recheck then cleared.editButtons > 0 else hasEdit;
      var withEdit := if cfg.showEditButton && hasLink && !editPresent then cleared.(editButtons := cleared.editButtons + 1) else cleared;
      if cfg.showDeleteButton && !hasDelete then withEdit.(deleteButtons := withEdit.deleteButtons + 1) else withEdit
  }

  /** The link field's value is truthy. */
  predicate HasLink(doc: Row, lf: Field) {
    Truthy(Get(doc, lf.fieldname))
  }

  /** `enhance_link_fields` on a data row, with either button check. */
  function EnhanceDataRow(cfg: RowConfig, doc: Row, meta: Meta, col: Option<LastCol>, recheck: bool): (r: Option<LastCol>)
    ensures col.None? ==> r.None?
    ensures !cfg.showEditButton && !cfg.showDeleteButton ==> r == col
    ensures meta.None? ==> r == col
    ensures meta.Some? && (forall i :: 0 <= i < |meta.value| ==> !IsLink(meta.value[i])) ==> r == col
  {
    if !cfg.showEditButton && !cfg.showDeleteButton then col
    else if meta.None? then col
    else
      match ChooseActionLinkField(cfg.primaryLinkField, meta.value)
      case None => col
      case Some(lf) =>
        if col.None? then col
        else Some(BuildButtons(cfg, HasLink(doc, lf), col.value, recheck))
  }

  /** The source's button logic never puts a second Edit or Delete button in the cell. */
  lemma NoDuplicateButtons(cfg: RowConfig, doc: Row, meta: Meta, col: LastCol, recheck: bool)
    requires col.editButtons <= 1 && col.deleteButtons <= 1
    ensures var r := EnhanceDataRow(cfg, doc, meta, Some(col), recheck);
            r.Some? && r.value.editButtons <= 1 && r.value.deleteButtons <= 1
  {
  }

  /** The cell as the host renders it, before any enhancement. */
  const HostCell: LastCol := LastCol(false, true, None, 0, 0)

  /** As written, with Edit on, Delete off and a linked row, every forced re-run of the setup
      flips the Edit button: the cell is cleared because it holds no Delete button, and the
      stale "has Edit" reading then keeps the button from being added back. */
  lemma EditButtonFlipFlop(cfg: RowConfig, doc: Row, lf: Field)
    requires cfg.showEditButton && !cfg.showDeleteButton
    requires cfg.primaryLinkField == lf.fieldname && IsLink(lf) && HasLink(doc, lf)
    ensures var once := EnhanceDataRow(cfg, doc, Some([lf]), Some(HostCell), false);
            var twice := EnhanceDataRow(cfg, doc, Some([lf]), once, false);
            var thrice := EnhanceDataRow(cfg, doc, Some([lf]), twice, false);
            && once.Some? && once.value.editButtons == 1
            && twice.Some? && twice.value.editButtons == 0
            && thrice.Some? && thrice.value.editButtons == 1
  {
    assert ChooseActionLinkField(cfg.primaryLinkField, [lf]) == Some(lf) by {
      assert [lf][0] == lf;
    }
  }

  /** Corrected, the button logic is idempotent: a re-run with the same row and settings
      leaves the cell as the first run left it. */
  lemma EnhanceFixedIdempotent(cfg: RowConfig, doc: Row, meta: Meta, col: Option<LastCol>)
    ensures var once := EnhanceDataRow(cfg, doc, meta, col, true);
            EnhanceDataRow(cfg, doc, meta, once, true) == once
  {
  }

  /** Corrected, a run on a fresh cell yields exactly the enabled buttons: Edit when enabled and
      the row is linked, Delete when enabled. */
  lemma EnhanceFixedFromHostCell(cfg: RowConfig, doc: Row, fields: seq<Field>, lf: Field)
    requires cfg.showEditButton || cfg.showDeleteButton
    requires ChooseActionLinkField(cfg.primaryLinkField, fields) == Some(lf)
    ensures var r := EnhanceDataRow(cfg, doc, Some(fields), Some(HostCell), true);
            && r.Some? && r.value.actionsClass && !r.value.hostContent
            && r.value.editButtons == (if cfg.showEditButton && HasLink(doc, lf) then 1 else 0)
            && r.value.deleteButtons == (if cfg.showDeleteButton then 1 else 0)
  {
  }

  /** `enhance_link_fields` on the heading row: when the child table has a `Link` field, the
      last heading cell is emptied, fixed to 120px and marked as the actions column, once. */
  function EnhanceHeaderRow(cfg: RowConfig, meta: Meta, col: Option<LastCol>): (r: Option<LastCol>)
    ensures r.None? <==> col.None?
    ensures r != col ==>
      && (cfg.showEditButton || cfg.showDeleteButton) && meta.Some?
      && (exists i :: 0 <= i < |meta.value| && IsLink(meta.value[i]))
      && !col.value.actionsClass
      && r == Some(LastCol(true, false, Some(Str("120px")), 0, 0))
    ensures col.Some? && col.value.actionsClass ==> r == col
    ensures (&& (cfg.showEditButton || cfg.showDeleteButton) && meta.Some?
             && (exists i :: 0 <= i < |meta.value| && IsLink(meta.value[i]))
             && col.Some? && !col.value.actionsClass)
      ==> r == Some(LastCol(true, false, Some(Str("120px")), 0, 0))
  {
    if !cfg.showEditButton && !cfg.showDeleteButton then col
    else if meta.None? then col
    else if Find(meta.value, IsLink).Some? && col.Some? && !col.value.actionsClass then
      Some(LastCol(true, false, Some(Str("120px")), 0, 0))
    else col
  }

  // ---------------------------------------------------------------------------------------
  // Row setup
  // ---------------------------------------------------------------------------------------

  /** `__islocal || __unsaved` is truthy. */
  predicate IsUnsaved(doc: Row) {
    Truthy(Get(doc, "__islocal")) || Truthy(Get(doc, "__unsaved"))
  }

  /** The guard of `setup_enhanced_row_features`: not already set up (unless forced), and the
      grid carries the marker, has a configuration, and that configuration is enabled. */
  predicate SetupRuns(row: RowState, grid: GridState, force: bool) {
    && !(row.setupDone && !force)
    && grid.hasMarker
    && grid.config.Some?
    && grid.config.value.enabled
  }

  /** `setup_enhanced_row_features`, with the corrected button logic. */
  function SetupRowFeatures(row: RowState, grid: GridState, force: bool, meta: Meta): (r: RowState)
    ensures !SetupRuns(row, grid, force) ==> r == row
    ensures SetupRuns(row, grid, force) ==> r.setupDone && r.doc == row.doc && r.hasElement == row.hasElement
    ensures SetupRuns(row, grid, force) && row.doc.Some? && row.hasElement ==>
      (r.unsavedClass <==> IsUnsaved(row.doc.value))
    ensures r.clickListeners > row.clickListeners ==>
      SetupRuns(row, grid, force) && InstallsClickHandler(row.doc, grid.config.value) && r.clickListeners == row.clickListeners + 1
    ensures SetupRuns(row, grid, force) && InstallsClickHandler(row.doc, grid.config.value) && row.hasElement ==>
      r.title == Some(Tooltip(grid.config.value))
    ensures SetupRuns(row, grid, force) && !grid.config.value.enableRowClick && row.hasElement ==> r.title.None?
  {
    if !SetupRuns(row, grid, force) then row
    else
      var cfg := grid.config.value;
      var unsaved := if row.doc.Some? && row.hasElement then IsUnsaved(row.doc.value) else row.unsavedClass;
      var clickInstalled := InstallsClickHandler(row.doc, cfg);
      var title :=
        if clickInstalled && row.hasElement then Some(Tooltip(cfg))
        else if !cfg.enableRowClick && row.hasElement then None
        else row.title;
      var listeners := if clickInstalled then row.clickListeners + 1 else row.clickListeners;
      var lastCol :=
        if row.doc.Some? then EnhanceDataRow(cfg, row.doc.value, meta, row.lastCol, true)
        else EnhanceHeaderRow(cfg, meta, row.lastCol);
      RowState(row.doc, row.hasElement, true, unsaved, title, listeners, lastCol)
  }

  /** Once set up, an unforced call changes nothing. */
  lemma SetupOnce(row: RowState, grid: GridState, meta: Meta)
    ensures var once := SetupRowFeatures(row, grid, false, meta);
            SetupRowFeatures(once, grid, false, meta) == once
  {
  }

  /** A forced re-run keeps everything the first run decided except that another click
      listener is attached, because the source adds one with each run. */
  lemma ForcedSetupStable(row: RowState, grid: GridState, meta: Meta)
    requires SetupRuns(row, grid, true)
    ensures var once := SetupRowFeatures(row, grid, true, meta);
            var again := SetupRowFeatures(once, grid, true, meta);
            again.(clickListeners := once.clickListeners) == once
            && (InstallsClickHandler(row.doc, grid.config.value) ==> again.clickListeners == once.clickListeners + 1)
  {
    var cfg := grid.config.value;
    var once := SetupRowFeatures(row, grid, true, meta);
    if row.doc.Some? {
      EnhanceFixedIdempotent(cfg, row.doc.value, meta, row.lastCol);
    }
  }
}

=== FILE: grid_utils.dfy ===
/** The pure helpers of grid_utils.js: link and visible field lookups, grouping, row copying,
    required-field validation and the retry counter of `configure_grid`. */
module GridUtils {
  import opened Wrappers
  import opened Seqs
  import opened Values

  // ---------------------------------------------------------------------------------------
  // Field lookups
  // ---------------------------------------------------------------------------------------

  /** `get_primary_link_field`: the field name of the first `Link` field, or null when there is
      none or the meta is missing. */
  function PrimaryLinkField(meta: Meta): (r: Option<string>)
    ensures meta.None? ==> r.None?
    ensures meta.Some? ==>
      var i := FindIndex(meta.value, IsLink);
      && (r.Some? <==> i < |meta.value|)
      && (r.Some? ==> IsLink(meta.value[i]) && r.value == meta.value[i].fieldname)
      && (forall j :: 0 <= j < i ==> !IsLink(meta.value[j]))
  {
    match meta
    case None => None
    case Some(fields) =>
      match Find(fields, IsLink)
      case Some(f) => Some(f.fieldname)
      case None => None
  }

  /** `get_link_fields`: every `Link` field in meta order; empty when the meta is missing. */
  function GetLinkFields(meta: Meta): (r: seq<Field>)
    ensures meta.None? ==> r == []
    ensures meta.Some? ==> r == Filter(meta.value, IsLink)
    ensures forall i :: 0 <= i < |r| ==> IsLink(r[i])
  {
    match meta
    case None => []
    case Some(fields) => Filter(fields, IsLink)
  }

  /** The primary link field is the head of the link-field list. */
  lemma {:induction false} PrimaryIsFirstLink(fields: seq<Field>)
    ensures var links := GetLinkFields(Some(fields));
            PrimaryLinkField(Some(fields)) == if links == [] then None else Some(links[0].fieldname)
  {
    if fields != [] && !IsLink(fields[0]) {
      PrimaryIsFirstLink(fields[1..]);
      assert FindIndex(fields, IsLink) == 1 + FindIndex(fields[1..], IsLink);
    }
  }

  /** `get_field_value`: the value when the doc exists and the value is truthy, else null. */
  function GetFieldValue(doc: Option<Row>, fieldname: string): (v: Value)
    ensures v == Null || Truthy(v)
    ensures v != Null ==> doc.Some? && fieldname in doc.value && doc.value[fieldname] == v
    ensures doc.Some? && Truthy(Get(doc.value, fieldname)) ==> v == Get(doc.value, fieldname)
  {
    if doc.Some? && Truthy(Get(doc.value, fieldname)) then Get(doc.value, fieldname) else Null
  }

  /** `is_field_visible`: a field exists and is neither hidden nor read-only. The filter of
      `get_visible_fields` is this test with the layout and table types removed. */
  function IsFieldVisible(df: Option<Field>): (visible: bool)
    ensures df.None? ==> !visible
    ensures df.Some? && (df.value.hidden || df.value.readOnly) ==> !visible
    ensures df.Some? && !df.value.hidden && !df.value.readOnly ==> visible
    ensures df.Some? ==> (IsVisibleDataField(df.value) <==> visible && df.value.fieldtype !in LayoutFieldTypes)
  {
    df.Some? && !df.value.hidden && !df.value.readOnly
  }

  const LayoutFieldTypes: set<string> := {"Table", "Section Break", "Column Break"}

  /** The filter of `get_visible_fields`. */
  predicate IsVisibleDataField(f: Field) {
    !f.hidden && !f.readOnly && f.fieldtype !in LayoutFieldTypes
  }

  /** `get_visible_fields`: the visible data fields in meta order; empty when the meta is missing. */
  function GetVisibleFields(meta: Meta): (r: seq<Field>)
    ensures meta.None? ==> r == []
    ensures meta.Some? ==> r == Filter(meta.value, IsVisibleDataField)
    ensures forall i :: 0 <= i < |r| ==> IsFieldVisible(Some(r[i])) && r[i].fieldtype !in LayoutFieldTypes
  {
    match meta
    case None => []
    case Some(fields) => Filter(fields, IsVisibleDataField)
  }

  /** A field is listed exactly when it is in the meta, visible and not a layout or table field. */
  lemma VisibleFieldsExactly(fields: seq<Field>, f: Field)
    ensures f in GetVisibleFields(Some(fields)) <==>
      f in fields && IsFieldVisible(Some(f)) && f.fieldtype !in LayoutFieldTypes
  {
    FilterMembers(fields, IsVisibleDataField, f);
  }

  // ---------------------------------------------------------------------------------------
  // Grouping
  // ---------------------------------------------------------------------------------------

  /** The group of an item: `String(item[fieldname])` when truthy, else the (translated)
      "Ungrouped" label. */
  function GroupKey(item: Row, fieldname: string, ungrouped: string, numText: real -> string): string {
    var v := Get(item, fieldname);
    if Truthy(v) then JsString(v, numText) else ungrouped
  }

  /** `group_by_field`: each item is appended to the group of its key. */
  function GroupByField(data: seq<Row>, fieldname: string, ungrouped: string, numText: real -> string)
    : (groups: map<string, seq<Row>>)
    ensures forall k :: k in groups ==> groups[k] != []
  {
    if data == [] then map[]
    else
      var g := GroupByField(data[1..], fieldname, ungrouped, numText);
      var key := GroupKey(data[0], fieldname, ungrouped, numText);
      g[key := [data[0]] + (if key in g then g[key] else [])]
  }

  /** The groups are exactly the keys that occur in the data. */
  lemma {:induction false} GroupKeysExact(data: seq<Row>, fieldname: string, ungrouped: string, numText: real -> string)
    ensures GroupByField(data, fieldname, ungrouped, numText).Keys
            == set i | 0 <= i < |data| :: GroupKey(data[i], fieldname, ungrouped, numText)
  {
    if data != [] {
      GroupKeysExact(data[1..], fieldname, ungrouped, numText);
      var tail := set i | 0 <= i < |data[1..]| :: GroupKey(data[1..][i], fieldname, ungrouped, numText);
      var all := set i | 0 <= i < |data| :: GroupKey(data[i], fieldname, ungrouped, numText);
      assert all == tail + {GroupKey(data[0], fieldname, ungrouped, numText)} by {
        forall k | k in all
          ensures k in tail + {GroupKey(data[0], fieldname, ungrouped, numText)}
        {
          var i :| 0 <= i < |data| && GroupKey(data[i], fieldname, ungrouped, numText) == k;
          if i > 0 {
            assert data[1..][i - 1] == data[i];
          }
        }
        forall k | k in tail
          ensures k in all
        {
          var i :| 0 <= i < |data[1..]| && GroupKey(data[1..][i], fieldname, ungrouped, numText) == k;
          assert data[i + 1] == data[1..][i];
        }
      }
    }
  }

  /** Each group holds the items of its key, in input order. */
  lemma {:induction false} GroupContents(data: seq<Row>, fieldname: string, ungrouped: string, numText: real -> string, k: string)
    requires k in GroupByField(data, fieldname, ungrouped, numText)
    ensures GroupByField(data, fieldname, ungrouped, numText)[k]
            == Filter(data, item => GroupKey(item, fieldname, ungrouped, numText) == k)
  {
    var p := item => GroupKey(item, fieldname, ungrouped, numText) == k;
    var g := GroupByField(data[1..], fieldname, ungrouped, numText);
    if k in g {
      GroupContents(data[1..], fieldname, ungrouped, numText, k);
    } else if data[1..] != [] {
      GroupKeysExact(data[1..], fieldname, ungrouped, numText);
      assert forall i :: 0 <= i < |data[1..]| ==> GroupKey(data[1..][i], fieldname, ungrouped, numText) in g;
      FilterNone(data[1..], p);
    }
  }

  /** Every item lands in the group of its key, and no group holds an item of another key. */
  lemma GroupsPartition(data: seq<Row>, fieldname: string, ungrouped: string, numText: real -> string)
    ensures var groups := GroupByField(data, fieldname, ungrouped, numText);
      && (forall i :: 0 <= i < |data| ==>
            var k := GroupKey(data[i], fieldname, ungrouped, numText); k in groups && data[i] in groups[k])
      && (forall k, x :: k in groups && x in groups[k] ==> GroupKey(x, fieldname, ungrouped, numText) == k)
  {
    var groups := GroupByField(data, fieldname, ungrouped, numText);
    GroupKeysExact(data, fieldname, ungrouped, numText);
    forall i | 0 <= i < |data|
      ensures var k := GroupKey(data[i], fieldname, ungrouped, numText); k in groups && data[i] in groups[k]
    {
      var k := GroupKey(data[i], fieldname, ungrouped, numText);
      assert k in groups;
      GroupContents(data, fieldname, ungrouped, numText, k);
      FilterMembers(data, item => GroupKey(item, fieldname, ungrouped, numText) == k, data[i]);
    }
    forall k, x | k in groups && x in groups[k]
      ensures GroupKey(x, fieldname, ungrouped, numText) == k
    {
      GroupContents(data, fieldname, ungrouped, numText, k);
      FilterMembers(data, item => GroupKey(item, fieldname, ungrouped, numText) == k, x);
    }
  }

  // ---------------------------------------------------------------------------------------
  // Row copy and validation
  // ---------------------------------------------------------------------------------------

  /** The fields `copy_row` leaves out unless told otherwise. */
  const DefaultExcluded: seq<string> := ["name", "idx", "creation", "modified", "modified_by", "owner"]

  /** `copy_row`: every key of the doc outside the exclude list, with the same value. An
      omitted list means the default one (an empty list is truthy, so it excludes nothing). */
  function CopyRow(doc: Row, exclude: Option<seq<string>>): (copy: Row)
    ensures forall k :: k in copy <==> k in doc && k !in exclude.GetOr(DefaultExcluded)
    ensures forall k :: k in copy ==> copy[k] == doc[k]
  {
    var ex := exclude.GetOr(DefaultExcluded);
    map k | k in doc && k !in ex :: doc[k]
  }

  /** Copying a copy with the same list changes nothing; a doc without excluded keys is copied whole. */
  lemma CopyRowIdempotent(doc: Row, exclude: Option<seq<string>>)
    ensures CopyRow(CopyRow(doc, exclude), exclude) == CopyRow(doc, exclude)
    ensures (forall k :: k in doc ==> k !in exclude.GetOr(DefaultExcluded)) ==> CopyRow(doc, exclude) == doc
  {
    var once := CopyRow(doc, exclude);
    assert CopyRow(once, exclude).Keys == once.Keys;
  }

  /** A field that `validate_required_fields` reports: required and with a falsy value. */
  predicate IsMissing(doc: Row, f: Field) {
    f.reqd && !Truthy(Get(doc, f.fieldname))
  }

  /** How a missing field is reported: its label, or its field name when the label is empty. */
  function ReportedName(f: Field): string {
    if f.fieldLabel != "" then f.fieldLabel else f.fieldname
  }

  function ReportedNames(fields: seq<Field>): (r: seq<string>)
    ensures |r| == |fields|
    ensures forall i :: 0 <= i < |fields| ==> r[i] == ReportedName(fields[i])
  {
    seq(|fields|, i requires 0 <= i < |fields| => ReportedName(fields[i]))
  }

  /** `validate_required_fields`: one entry per missing field, in meta order. */
  function ValidateRequiredFields(doc: Row, fields: seq<Field>): (missing: seq<string>)
    ensures |missing| <= |fields|
  {
    if fields == [] then []
    else if IsMissing(doc, fields[0]) then [ReportedName(fields[0])] + ValidateRequiredFields(doc, fields[1..])
    else ValidateRequiredFields(doc, fields[1..])
  }

  /** The report names the missing fields, and only those, in meta order. */
  lemma {:induction false} ValidateReportsMissing(doc: Row, fields: seq<Field>)
    ensures ValidateRequiredFields(doc, fields) == ReportedNames(Filter(fields, f => IsMissing(doc, f)))
  {
    if fields != [] {
      ValidateReportsMissing(doc, fields[1..]);
    }
  }

  /** The report is empty exactly when every required field has a truthy value. */
  lemma {:induction false} ValidateEmptyIff(doc: Row, fields: seq<Field>)
    ensures ValidateRequiredFields(doc, fields) == [] <==>
      forall i :: 0 <= i < |fields| && fields[i].reqd ==> Truthy(Get(doc, fields[i].fieldname))
  {
    if fields != [] {
      ValidateEmptyIff(doc, fields[1..]);
      assert forall i :: 1 <= i < |fields| ==> fields[i] == fields[1..][i - 1];
    }
  }

  // ---------------------------------------------------------------------------------------
  // configure_grid retries
  // ---------------------------------------------------------------------------------------

  /** What one call of `configure_grid` does: configure the grid now, schedule a retry with the
      given counter 100ms later, or warn and stop. */
  datatype Step = ConfigureNow | RetryWith(counter: int) | GiveUp

  /** `max_retries || 10` as written: an omitted counter and a counter of 0 both become 10. */
  function CounterAsWritten(maxRetries: Option<int>): (n: int)
    ensures maxRetries.None? ==> n == 10
    ensures maxRetries.Some? ==> n == if maxRetries.value == 0 then 10 else maxRetries.value
  {
    if maxRetries.None? || maxRetries.value == 0 then 10 else maxRetries.value
  }

  /** `max_retries ?? 10`: only an omitted counter becomes 10. */
  function CounterFixed(maxRetries: Option<int>): (n: int)
    ensures maxRetries.None? ==> n == 10
    ensures maxRetries.Some? ==> n == maxRetries.value
  {
    maxRetries.GetOr(10)
  }

  /** One call, given the counter after defaulting and whether the grid is enhanced yet. */
  function Attempt(counter: int, ready: bool): (s: Step)
    ensures ready <==> s == ConfigureNow
    ensures s == GiveUp <==> !ready && counter <= 0
    ensures s.RetryWith? ==> s.counter == counter - 1 && s.counter >= 0
  {
    if ready then ConfigureNow
    else if counter > 0 then RetryWith(counter - 1)
    else GiveUp
  }

  /** As written, a call scheduled by a retry never gives up: the counter it receives is never
      negative, and the last one (0) is turned back into 10. */
  lemma RetryNeverGivesUp(caller: int, callerReady: bool, ready: bool)
    requires Attempt(caller, callerReady).RetryWith?
    ensures Attempt(CounterAsWritten(Some(Attempt(caller, callerReady).counter)), ready) != GiveUp
  {
  }

  /** As written, eleven calls on a grid that never becomes enhanced bring the counter back to 10. */
  lemma RetryCounterWrapsAround()
    ensures Attempt(CounterAsWritten(Some(0)), false) == RetryWith(9)
    ensures Attempt(CounterAsWritten(None), false) == RetryWith(9)
  {
  }

  /** The outcome of a whole retry chain with the corrected default: configured on attempt `t`,
      or given up after attempt `t`. */
  datatype Outcome = ConfiguredAt(t: nat) | GaveUpAt(t: nat)

  /** The chain of calls that starts at attempt `t` with `counter`; `ready(t)` says whether the
      grid is enhanced when attempt `t` runs. */
  function RunFixed(counter: int, ready: nat -> bool, t: nat): (o: Outcome)
    ensures o.ConfiguredAt? ==> ready(o.t) && t <= o.t && (forall u :: t <= u < o.t ==> !ready(u))
    ensures o.GaveUpAt? ==> o.t == t + (if counter > 0 then counter else 0)
                            && (forall u :: t <= u <= o.t ==> !ready(u))
    decreases if counter > 0 then counter else 0
  {
    match Attempt(counter, ready(t))
    case ConfigureNow => ConfiguredAt(t)
    case GiveUp => GaveUpAt(t)
    case RetryWith(n) => RunFixed(CounterFixed(Some(n)), ready, t + 1)
  }

  /** With the corrected default, a grid that never becomes enhanced is given up on after the
      first call and exactly `max_retries` retries. */
  lemma {:induction false} FixedGivesUp(maxRetries: Option<int>, ready: nat -> bool)
    requires forall u :: !ready(u)
    requires CounterFixed(maxRetries) >= 0
    ensures RunFixed(CounterFixed(maxRetries), ready, 0) == GaveUpAt(CounterFixed(maxRetries))
  {
  }
}

=== FILE: sorting.dfy ===
/** Column sorting: the header click cycle shared by enhanced_grid.js and tablez_grid.js, the
    grid comparator of `sort_by_field` in those two files, and the case-insensitive comparator
    of `tablez.sort_by_field` in grid_utils.js. */
module Sorting {
  import opened Wrappers
  import opened Values

  // ---------------------------------------------------------------------------------------
  // Header cycle
  // ---------------------------------------------------------------------------------------

  /** A heading cell: its `data-fieldname` and its `data-sort-order` ("" when either is absent). */
  datatype Header = Header(fieldname: string, order: string)

  /** What the click asks of the grid after updating the headings. */
  datatype SortEffect = NoEffect | ResetGrid | SortBy(fieldname: string, order: string)

  /** The next `data-sort-order`: a missing attribute counts as `'none'`, `'asc'` is followed by
      `'desc'`, `'desc'` by `'none'`, and anything else (`'none'` included) by `'asc'`. */
  function NextSort(current: string): (next: string)
    ensures next in {"asc", "desc", "none"}
    ensures current == "asc" <==> next == "desc"
    ensures current == "desc" <==> next == "none"
  {
    var cur := if current == "" then "none" else current;
    if cur == "asc" then "desc"
    else if cur == "desc" then "none"
    else "asc"
  }

  /** Three clicks bring an unsorted column back to unsorted, through ascending and descending. */
  lemma SortCycle(current: string)
    requires current in {"", "none"}
    ensures NextSort(current) == "asc"
    ensures NextSort(NextSort(current)) == "desc"
    ensures NextSort(NextSort(NextSort(current))) == "none"
  {
  }

  /** The click handler on heading `i`. A heading without a field name does nothing. Without
      Shift every other heading is reset to `'none'`; with Shift they keep their order. */
  function ClickHeader(headers: seq<Header>, i: nat, shift: bool): (r: (seq<Header>, SortEffect))
    requires i < |headers|
    ensures |r.0| == |headers|
    ensures headers[i].fieldname == "" ==> r == (headers, NoEffect)
    ensures headers[i].fieldname != "" ==>
      && r.0[i] == headers[i].(order := NextSort(headers[i].order))
      && (forall j :: 0 <= j < |headers| && j != i && shift ==> r.0[j] == headers[j])
      && (forall j :: 0 <= j < |headers| && j != i && !shift ==> r.0[j] == headers[j].(order := "none"))
      && (r.1 == ResetGrid <==> NextSort(headers[i].order) == "none")
      && (r.1 != ResetGrid ==> r.1 == SortBy(headers[i].fieldname, NextSort(headers[i].order)))
  {
    var h := headers[i];
    if h.fieldname == "" then (headers, NoEffect)
    else
      var next := NextSort(h.order);
      var cleared := if shift then headers
                     else seq(|headers|, j requires 0 <= j < |headers| => headers[j].(order := "none"));
      var updated := cleared[i := h.(order := next)];
      (updated, if next == "none" then ResetGrid else SortBy(h.fieldname, next))
  }

  /** Sorted columns after a click without Shift: only the clicked one can be sorted. */
  lemma SingleSortWithoutShift(headers: seq<Header>, i: nat, j: nat)
    requires i < |headers| && j < |headers| && j != i
    ensures ClickHeader(headers, i, false).0[j].order in {headers[j].order, "none"}
    ensures headers[i].fieldname != "" ==> ClickHeader(headers, i, false).0[j].order == "none"
  {
  }

  // ---------------------------------------------------------------------------------------
  // The grid comparator (enhanced_grid.js and tablez_grid.js)
  // ---------------------------------------------------------------------------------------

  /** The UTF-16 code units JavaScript stores for one character: one unit up to U+FFFF, a
      surrogate pair above it. */
  function CodeUnits(c: char): (u: seq<int>)
    ensures 0 < |u| <= 2
    ensures c as int < 0x10000 <==> u == [c as int]
    ensures c as int >= 0x10000 ==> 0xD800 <= u[0] < 0xDC00
  {
    var n := c as int;
    if n < 0x10000 then [n]
    else [0xD800 + (n - 0x10000) / 0x400, 0xDC00 + (n - 0x10000) % 0x400]
  }

  /** A string as JavaScript stores it: its UTF-16 code units. */
  function Utf16(s: string): seq<int> {
    if s == [] then [] else CodeUnits(s[0]) + Utf16(s[1..])
  }

  /** Lexicographic order on code units, a proper prefix first. */
  function UnitsLess(a: seq<int>, b: seq<int>): bool {
    if b == [] then false
    else if a == [] then true
    else if a[0] != b[0] then a[0] < b[0]
    else UnitsLess(a[1..], b[1..])
  }

  /** JavaScript `<` between two strings: the order of their UTF-16 code units. */
  function StrLess(s: string, t: string): bool {
    UnitsLess(Utf16(s), Utf16(t))
  }

  lemma {:induction false} UnitsLessAsymmetric(a: seq<int>, b: seq<int>)
    ensures UnitsLess(a, b) ==> !UnitsLess(b, a)
    ensures !UnitsLess(a, a)
  {
    if a != [] && b != [] && a[0] == b[0] {
      UnitsLessAsymmetric(a[1..], b[1..]);
    }
    if a != [] {
      UnitsLessAsymmetric(a[1..], a[1..]);
    }
  }

  /** String `<` is a strict order: it never holds both ways and never for equal strings. */
  lemma StrLessAsymmetric(s: string, t: string)
    ensures StrLess(s, t) ==> !StrLess(t, s)
    ensures !StrLess(s, s)
  {
    UnitsLessAsymmetric(Utf16(s), Utf16(t));
    UnitsLessAsymmetric(Utf16(s), Utf16(s));
  }

  /** Two strings whose first characters differ and lie below U+10000 compare by those
      characters. */
  lemma StrLessByFirstChar(s: string, t: string)
    requires s != [] && t != [] && t[0] as int < 0x10000 && s[0] < t[0]
    ensures StrLess(s, t)
  {
    assert Utf16(s) == CodeUnits(s[0]) + Utf16(s[1..]);
    assert Utf16(t) == CodeUnits(t[0]) + Utf16(t[1..]);
  }

  /** Code-unit order is not character order: U+1F600 is stored from U+D83D, so it sorts before
      U+FF01 although it is the larger character. */
  lemma StrLessCodeUnitOrder()
    ensures '\U{FF01}' < '\U{1F600}'
    ensures StrLess("\U{1F600}", "\U{FF01}") && !StrLess("\U{FF01}", "\U{1F600}")
  {
    assert Utf16("\U{1F600}") == [0xD83D, 0xDE00];
    assert Utf16("\U{FF01}") == [0xFF01];
  }

  /** `ToNumber` of a non-null value; `None` is NaN. Strings go through the host's numeric
      conversion, given as a parameter. */
  function ToNumber(v: Value, toNumber: string -> Option<real>): (n: Option<real>)
    ensures v.Num? ==> n == Some(v.n)
  {
    match v
    case Null => None
    case Num(x) => Some(x)
    case Bool(b) => Some(if b then 1.0 else 0.0)
    case Str(s) => toNumber(s)
  }

  /** JavaScript `a < b` on two values: strings compare as strings, anything else numerically,
      and a NaN side makes it false. */
  function JsLess(a: Value, b: Value, toNumber: string -> Option<real>): (lt: bool)
    ensures a.Str? && b.Str? ==> (lt <==> StrLess(a.s, b.s))
    ensures a.Num? && b.Num? ==> (lt <==> a.n < b.n)
  {
    if a.Str? && b.Str? then StrLess(a.s, b.s)
    else
      match (ToNumber(a, toNumber), ToNumber(b, toNumber))
      case (Some(x), Some(y)) => x < y
      case _ => false
  }

  lemma JsLessAsymmetric(a: Value, b: Value, toNumber: string -> Option<real>)
    ensures JsLess(a, b, toNumber) ==> !JsLess(b, a, toNumber)
  {
    if a.Str? && b.Str? {
      StrLessAsymmetric(a.s, b.s);
    }
  }

  /** The comparator passed to `data.sort` in the grid's `sort_by_field`, as written: a null or
      undefined left side sorts after, then a null right side sorts before, then `<`/`>`. */
  function GridCompare(a: Value, b: Value, order: string, toNumber: string -> Option<real>): (c: int)
    ensures c in {-1, 0, 1}
    ensures a == Null ==> c == 1
    ensures a != Null && b == Null ==> c == -1
    ensures a != Null && b != Null && order == "asc" ==>
      (c == -1 <==> JsLess(a, b, toNumber)) && (c == 1 <==> !JsLess(a, b, toNumber) && JsLess(b, a, toNumber))
  {
    JsLessAsymmetric(a, b, toNumber);
    if a == Null then 1
    else if b == Null then -1
    else if JsLess(a, b, toNumber) then (if order == "asc" then -1 else 1)
    else if JsLess(b, a, toNumber) then (if order == "asc" then 1 else -1)
    else 0
  }

  /** A null value goes after a non-null one whatever the order, from either side. */
  lemma NullsLastEitherOrder(v: Value, order: string, toNumber: string -> Option<real>)
    requires v != Null
    ensures GridCompare(Null, v, order, toNumber) > 0
    ensures GridCompare(v, Null, order, toNumber) < 0
  {
  }

  /** For two non-null values, descending is ascending reversed, and swapping the operands
      negates the answer. */
  lemma GridCompareReverses(a: Value, b: Value, toNumber: string -> Option<real>)
    requires a != Null && b != Null
    ensures GridCompare(a, b, "desc", toNumber) == -GridCompare(a, b, "asc", toNumber)
    ensures GridCompare(b, a, "asc", toNumber) == -GridCompare(a, b, "asc", toNumber)
  {
    JsLessAsymmetric(a, b, toNumber);
  }

  /** As written, two null values each claim to sort after the other. */
  lemma GridCompareNullsInconsistent(order: string, toNumber: string -> Option<real>)
    ensures GridCompare(Null, Null, order, toNumber) == 1
    ensures GridCompare(Null, Null, order, toNumber) != -GridCompare(Null, Null, order, toNumber)
  {
  }

  /** The comparator with two nulls treated as equal, which keeps it consistent. */
  function GridCompareFixed(a: Value, b: Value, order: string, toNumber: string -> Option<real>): (c: int)
    ensures c in {-1, 0, 1}
    ensures a == Null && b == Null ==> c == 0
    ensures !(a == Null && b == Null) ==> c == GridCompare(a, b, order, toNumber)
  {
    if a == Null && b == Null then 0 else GridCompare(a, b, order, toNumber)
  }

  /** The corrected comparator is antisymmetric on every pair of values. */
  lemma GridCompareFixedAntisymmetric(a: Value, b: Value, order: string, toNumber: string -> Option<real>)
    ensures GridCompareFixed(b, a, order, toNumber) == -GridCompareFixed(a, b, order, toNumber)
  {
    JsLessAsymmetric(a, b, toNumber);
  }

  /** Every row whose sort key is null comes after every row whose key is not. */
  ghost predicate NullsLast(rows: seq<Row>, fieldname: string) {
    forall i, j :: 0 <= i < j < |rows| && Get(rows[i], fieldname) == Null ==> Get(rows[j], fieldname) == Null
  }

  /** Place `x` before the first row that compares greater than it. */
  function Insert(x: Row, sorted: seq<Row>, fieldname: string, order: string, toNumber: string -> Option<real>)
    : (r: seq<Row>)
    ensures multiset(r) == multiset(sorted) + multiset{x}
    decreases |sorted|
  {
    if sorted == [] then [x]
    else if GridCompareFixed(Get(sorted[0], fieldname), Get(x, fieldname), order, toNumber) > 0 then [x] + sorted
    else
      assert sorted == [sorted[0]] + sorted[1..];
      [sorted[0]] + Insert(x, sorted[1..], fieldname, order, toNumber)
  }

  /** A row with a null key compares greater than nothing, so it goes to the very end. */
  lemma {:induction false} InsertNullAppends(x: Row, sorted: seq<Row>, fieldname: string, order: string, toNumber: string -> Option<real>)
    requires Get(x, fieldname) == Null
    ensures Insert(x, sorted, fieldname, order, toNumber) == sorted + [x]
    decreases |sorted|
  {
    if sorted != [] {
      NullNeverPrecedes(Get(sorted[0], fieldname), order, toNumber);
      InsertNullAppends(x, sorted[1..], fieldname, order, toNumber);
      assert sorted + [x] == [sorted[0]] + (sorted[1..] + [x]);
    }
  }

  /** No key compares greater than a null one. */
  lemma NullNeverPrecedes(a: Value, order: string, toNumber: string -> Option<real>)
    ensures GridCompareFixed(a, Null, order, toNumber) <= 0
  {
  }

  /** Inserting a row with a non-null key never places it after a row with a null key. */
  lemma {:induction false} InsertKeepsNullsLast(x: Row, sorted: seq<Row>, fieldname: string, order: string, toNumber: string -> Option<real>)
    requires NullsLast(sorted, fieldname)
    ensures NullsLast(Insert(x, sorted, fieldname, order, toNumber), fieldname)
    decreases |sorted|
  {
    if Get(x, fieldname) == Null {
      InsertNullAppends(x, sorted, fieldname, order, toNumber);
    } else if sorted != [] {
      if GridCompareFixed(Get(sorted[0], fieldname), Get(x, fieldname), order, toNumber) <= 0 {
        assert Get(sorted[0], fieldname) != Null;
        InsertKeepsNullsLast(x, sorted[1..], fieldname, order, toNumber);
      }
    }
  }

  /** The grid's sort with the corrected comparator, as an insertion sort over the rows. The
      host's `Array.prototype.sort` algorithm is not part of this model; what it shares with
      any sort is that the rows are permuted and that null keys end up last. */
  function SortRows(rows: seq<Row>, fieldname: string, order: string, toNumber: string -> Option<real>)
    : (r: seq<Row>)
    ensures multiset(r) == multiset(rows)
    ensures |r| == |rows|
    ensures NullsLast(r, fieldname)
  {
    if rows == [] then []
    else
      assert rows == rows[..|rows| - 1] + [rows[|rows| - 1]];
      var sortedPrefix := SortRows(rows[..|rows| - 1], fieldname, order, toNumber);
      InsertKeepsNullsLast(rows[|rows| - 1], sortedPrefix, fieldname, order, toNumber);
      var r := Insert(rows[|rows| - 1], sortedPrefix, fieldname, order, toNumber);
      assert |r| == |multiset(r)|;
      r
  }

  // ---------------------------------------------------------------------------------------
  // The case-insensitive comparator of grid_utils.js
  // ---------------------------------------------------------------------------------------

  /** `toLowerCase` on the ASCII letters; other characters are kept. */
  function LowerChar(c: char): (l: char)
    ensures !('A' <= l <= 'Z')
  {
    if 'A' <= c <= 'Z' then (c as int - 'A' as int + 'a' as int) as char else c
  }

  function Lower(s: string): (l: string)
    ensures |l| == |s|
    ensures forall i :: 0 <= i < |s| ==> l[i] == LowerChar(s[i])
  {
    seq(|s|, i requires 0 <= i < |s| => LowerChar(s[i]))
  }

  lemma LowerIdempotent(s: string)
    ensures Lower(Lower(s)) == Lower(s)
  {
  }

  /** The comparator of `tablez.sort_by_field`: a null or undefined left side sorts after, a
      null right side before, two numbers by their difference, anything else by the lower-cased
      strings. Any order other than `'asc'` is descending. */
  function UtilsCompare(a: Value, b: Value, order: string, numText: real -> string): (c: real)
    ensures a == Null ==> c == 1.0
    ensures a != Null && b == Null ==> c == -1.0
    ensures a.Num? && b.Num? && order == "asc" ==> (c < 0.0 <==> a.n < b.n) && (c == 0.0 <==> a.n == b.n)
    ensures a.Num? && b.Num? && order != "asc" ==> (c < 0.0 <==> b.n < a.n) && (c == 0.0 <==> a.n == b.n)
    ensures a != Null && b != Null && !(a.Num? && b.Num?) ==>
      var x := Lower(JsString(a, numText));
      var y := Lower(JsString(b, numText));
      && (c < 0.0 <==> (order == "asc" && StrLess(x, y)) || (order != "asc" && !StrLess(x, y) && StrLess(y, x)))
      && (c == 0.0 <==> !StrLess(x, y) && !StrLess(y, x))
  {
    if a == Null then 1.0
    else if b == Null then -1.0
    else if a.Num? && b.Num? then (if order == "asc" then a.n - b.n else b.n - a.n)
    else
      var x := Lower(JsString(a, numText));
      var y := Lower(JsString(b, numText));
      StrLessAsymmetric(x, y);
      if StrLess(x, y) then (if order == "asc" then -1.0 else 1.0)
      else if StrLess(y, x) then (if order == "asc" then 1.0 else -1.0)
      else 0.0
  }

  /** For non-null values `'desc'` is `'asc'` negated. */
  lemma UtilsDescNegatesAsc(a: Value, b: Value, numText: real -> string)
    requires a != Null && b != Null
    ensures UtilsCompare(a, b, "desc", numText) == -UtilsCompare(a, b, "asc", numText)
  {
    if !(a.Num? && b.Num?) {
      StrLessAsymmetric(Lower(JsString(a, numText)), Lower(JsString(b, numText)));
    }
  }

  /** Strings differing only in the case of ASCII letters compare equal, and comparing two
      strings is the same as comparing their lower-cased forms. */
  lemma UtilsCaseInsensitive(s: string, t: string, order: string, numText: real -> string)
    ensures UtilsCompare(Str(s), Str(t), order, numText) == UtilsCompare(Str(Lower(s)), Str(Lower(t)), order, numText)
    ensures Lower(s) == Lower(t) ==> UtilsCompare(Str(s), Str(t), order, numText) == 0.0
  {
    LowerIdempotent(s);
    LowerIdempotent(t);
    StrLessAsymmetric(Lower(s), Lower(t));
  }

  /** `"Apple"` and `"apple"` tie, and `"Banana"` sorts after `"apple"` although `'B'` comes
      before `'a'` in code-unit order. */
  lemma UtilsExamples(numText: real -> string)
    ensures UtilsCompare(Str("Apple"), Str("apple"), "asc", numText) == 0.0
    ensures UtilsCompare(Str("Banana"), Str("apple"), "asc", numText) == 1.0
    ensures UtilsCompare(Num(2.0), Num(10.0), "asc", numText) < 0.0
  {
    CaseTieExample(numText);
    CaseOrderExample(numText);
  }

  lemma CaseTieExample(numText: real -> string)
    ensures UtilsCompare(Str("Apple"), Str("apple"), "asc", numText) == 0.0
  {
    var x := Lower("Apple");
    assert x[0] == 'a' && x[1] == 'p' && x[2] == 'p' && x[3] == 'l' && x[4] == 'e';
    assert x == "apple";
    UtilsCaseInsensitive("Apple", "apple", "asc", numText);
  }

  lemma CaseOrderExample(numText: real -> string)
    ensures UtilsCompare(Str("Banana"), Str("apple"), "asc", numText) == 1.0
  {
    var x, y := Lower("Banana"), Lower("apple");
    assert x[0] == 'b' && y[0] == 'a';
    StrLessByFirstChar(y, x);
    StrLessAsymmetric(y, x);
  }
}

=== FILE: tablez_test.dfy ===
/** `TablezTest.calculate_totals` of tablez_test.py: the server-side recomputation of item
    amounts and of the document's quantity and amount totals. */
module TablezTest {
  import opened Wrappers

  /** A child item; `None` is Python's `None`. */
  datatype Item = Item(quantity: Option<real>, rate: Option<real>, amount: Option<real>)

  /** Python truthiness of an optional number. */
  predicate Truthy(x: Option<real>) {
    x.Some? && x.value != 0.0
  }

  /** `x or 0`. */
  function OrZero(x: Option<real>): (r: real)
    ensures Truthy(x) ==> r == x.value
    ensures !Truthy(x) ==> r == 0.0
  {
    if Truthy(x) then x.value else 0.0
  }

  /** The recomputed amount: `quantity * rate` when both are truthy, else 0. */
  function Amount(item: Item): (a: real)
    ensures a == OrZero(item.quantity) * OrZero(item.rate)
  {
    if Truthy(item.quantity) && Truthy(item.rate) then item.quantity.value * item.rate.value else 0.0
  }

  /** The amount an item had before never matters. */
  lemma AmountIgnoresStaleValue(item: Item, stale: Option<real>)
    ensures Amount(item.(amount := stale)) == Amount(item)
  {
  }

  /** Sum of `quantity or 0` over the items. */
  function TotalQuantity(items: seq<Item>): real {
    if items == [] then 0.0 else TotalQuantity(items[..|items| - 1]) + OrZero(items[|items| - 1].quantity)
  }

  /** Sum of the recomputed amounts over the items. */
  function TotalAmount(items: seq<Item>): real {
    if items == [] then 0.0 else TotalAmount(items[..|items| - 1]) + Amount(items[|items| - 1])
  }

  /** `calculate_totals`: every item's amount is recomputed in place, and the quantities and
      the fresh amounts are summed. */
  method CalculateTotals(items: seq<Item>) returns (updated: seq<Item>, totalQuantity: real, totalAmount: real)
    ensures |updated| == |items|
    ensures forall i :: 0 <= i < |items| ==> updated[i] == items[i].(amount := Some(Amount(items[i])))
    ensures totalQuantity == TotalQuantity(items)
    ensures totalAmount == TotalAmount(items)
    ensures items == [] ==> totalQuantity == 0.0 && totalAmount == 0.0
  {
    updated := [];
    totalQuantity := 0.0;
    totalAmount := 0.0;
    var i := 0;
    while i < |items|
      invariant 0 <= i <= |items|
      invariant |updated| == i
      invariant forall j :: 0 <= j < i ==> updated[j] == items[j].(amount := Some(Amount(items[j])))
      invariant totalQuantity == TotalQuantity(items[..i])
      invariant totalAmount == TotalAmount(items[..i])
    {
      var item := items[i];
      var amount := if Truthy(item.quantity) && Truthy(item.rate) then item.quantity.value * item.rate.value else 0.0;
      assert amount == Amount(items[i]);
      item := item.(amount := Some(amount));
      totalQuantity := totalQuantity + OrZero(item.quantity);
      totalAmount := totalAmount + OrZero(item.amount);
      assert item == items[i].(amount := Some(Amount(items[i])));
      assert forall j :: 0 <= j < i ==> (updated + [item])[j] == updated[j];
      updated := updated + [item];
      assert items[..i + 1][..i] == items[..i];
      i := i + 1;
    }
    assert items[..i] == items;
  }

  /** The amount total is the total of the stored amounts after the recomputation. */
  lemma {:induction false} AmountTotalMatchesItems(items: seq<Item>, updated: seq<Item>)
    requires |updated| == |items|
    requires forall i :: 0 <= i < |items| ==> updated[i] == items[i].(amount := Some(Amount(items[i])))
    ensures TotalAmount(items) == StoredAmounts(updated)
    decreases |items|
  {
    if items != [] {
      var n := |items| - 1;
      AmountTotalMatchesItems(items[..n], updated[..n]);
      assert OrZero(updated[n].amount) == Amount(items[n]);
    }
  }

  /** Sum of `amount or 0` over the items as stored. */
  function StoredAmounts(items: seq<Item>): real {
    if items == [] then 0.0 else StoredAmounts(items[..|items| - 1]) + OrZero(items[|items| - 1].amount)
  }

  /** Quantities of 2 and 3 at rates 10 and (missing) give totals 5 and 20. */
  lemma Example()
    ensures TotalQuantity([Item(Some(2.0), Some(10.0), Some(99.0)), Item(Some(3.0), None, Some(7.0))]) == 5.0
    ensures TotalAmount([Item(Some(2.0), Some(10.0), Some(99.0)), Item(Some(3.0), None, Some(7.0))]) == 20.0
  {
    var items := [Item(Some(2.0), Some(10.0), Some(99.0)), Item(Some(3.0), None, Some(7.0))];
    assert items[..1] == [items[0]];
    assert [items[0]][..0] == [];
  }
}

=== FILE: totals.dfy ===
/** The total row's figures (`calculate_totals` in tablez_grid.js). */
module Totals {
  import opened Wrappers
  import opened Seqs
  import opened Values

  /** A JavaScript number as `parseFloat` can return it. */
  datatype JsNumber = Finite(x: real) | NaN

  /** A grid row as the aggregator sees it: the row document, when the row has one. */
  datatype GridRow = GridRow(doc: Option<Row>)

  /** `parseFloat(val)`. The text-to-number conversion is the parameter `parse`, which answers
      `None` where `parseFloat` answers NaN; `null`, `undefined` and booleans stringify to text
      that never parses. */
  function ParseFloat(v: Value, parse: string -> Option<real>): JsNumber {
    match v
    case Num(x) => Finite(x)
    case Str(s) => if parse(s).Some? then Finite(parse(s).value) else NaN
    case Bool(_) => NaN
    case Null => NaN
  }

  /** `n || 0` on a number: NaN and zero are falsy and give 0. */
  function OrZero(n: JsNumber): JsNumber {
    match n
    case NaN => Finite(0.0)
    case Finite(x) => Finite(x)
  }

  /** The coercion rule `(val == null || val === '') ? 0 : parseFloat(val) || 0`: anything that
      is not a number becomes 0, so the result is never NaN. */
  function Coerce(v: Value, parse: string -> Option<real>): (n: JsNumber)
    ensures n.Finite?
    ensures v == Null || v == Str("") || v.Bool? ==> n == Finite(0.0)
    ensures v.Num? ==> n == Finite(v.n)
    ensures v.Str? && v.s != "" ==> n == Finite(parse(v.s).GetOr(0.0))
  {
    if v == Null || v == Str("") then Finite(0.0) else OrZero(ParseFloat(v, parse))
  }

  predicate IsIncluded(row: GridRow) {
    row.doc.Some? && !Truthy(Get(row.doc.value, "__islocal"))
  }

  /** `grid_rows.filter(row => row.doc && !row.doc.__islocal).map(row => row.doc)`. */
  function IncludedDocs(rows: seq<GridRow>): (docs: seq<Row>)
    ensures |docs| == Count(rows, IsIncluded)
    ensures forall i :: 0 <= i < |docs| ==> !Truthy(Get(docs[i], "__islocal"))
    ensures forall i :: 0 <= i < |rows| && IsIncluded(rows[i]) ==> rows[i].doc.value in docs
    ensures forall j :: 0 <= j < |rows| && IsIncluded(rows[j]) ==>
      Count(rows[..j], IsIncluded) < |docs| && docs[Count(rows[..j], IsIncluded)] == rows[j].doc.value
  {
    if rows == [] then []
    else
      var rest := IncludedDocs(rows[1..]);
      CountPrefixTail(rows, IsIncluded);
      assert forall j :: 1 <= j < |rows| ==> rows[j] == rows[1..][j - 1];
      if IsIncluded(rows[0]) then [rows[0].doc.value] + rest else rest
  }

  /** `data.map(doc => coerce(doc[fieldname]))`, before the NaN filter. */
  function Coerced(docs: seq<Row>, fieldname: string, parse: string -> Option<real>): (ns: seq<JsNumber>)
    ensures |ns| == |docs|
    ensures forall i :: 0 <= i < |ns| ==> ns[i] == Coerce(Get(docs[i], fieldname), parse)
  {
    seq(|docs|, i requires 0 <= i < |docs| => Coerce(Get(docs[i], fieldname), parse))
  }

  predicate NotNaN(n: JsNumber) {
    n.Finite?
  }

  /** The `.filter(v => !isNaN(v))` step removes nothing, because coercion never yields NaN. */
  lemma NaNFilterIsNoOp(docs: seq<Row>, fieldname: string, parse: string -> Option<real>)
    ensures Filter(Coerced(docs, fieldname, parse), NotNaN) == Coerced(docs, fieldname, parse)
  {
    FilterAll(Coerced(docs, fieldname, parse), NotNaN);
  }

  /** The numbers one configured column aggregates: one per included row, in row order. */
  function ColumnValues(docs: seq<Row>, fieldname: string, parse: string -> Option<real>): (vs: seq<real>)
    ensures |vs| == |docs|
    ensures forall i :: 0 <= i < |docs| ==> Finite(vs[i]) == Coerce(Get(docs[i], fieldname), parse)
  {
    var kept := Filter(Coerced(docs, fieldname, parse), NotNaN);
    NaNFilterIsNoOp(docs, fieldname, parse);
    seq(|kept|, i requires 0 <= i < |kept| => kept[i].x)
  }

  /** `values.reduce((a, b) => a + b, 0)`. */
  function Sum(vs: seq<real>): real {
    if vs == [] then 0.0 else vs[0] + Sum(vs[1..])
  }

  /** `Math.min(...values)` on a non-empty list. */
  function Minimum(vs: seq<real>): (m: real)
    requires vs != []
    ensures m in vs
    ensures forall i :: 0 <= i < |vs| ==> m <= vs[i]
  {
    if |vs| == 1 then vs[0]
    else
      var rest := Minimum(vs[1..]);
      assert forall i :: 1 <= i < |vs| ==> vs[i] == vs[1..][i - 1];
      if vs[0] <= rest then vs[0] else rest
  }

  /** `Math.max(...values)` on a non-empty list. */
  function Maximum(vs: seq<real>): (m: real)
    requires vs != []
    ensures m in vs
    ensures forall i :: 0 <= i < |vs| ==> vs[i] <= m
  {
    if |vs| == 1 then vs[0]
    else
      var rest := Maximum(vs[1..]);
      assert forall i :: 1 <= i < |vs| ==> vs[i] == vs[1..][i - 1];
      if vs[0] >= rest then vs[0] else rest
  }

  /** The `switch (operation)` of `calculate_totals`, compared with `===`: an operation that is
      not one of the six strings below (including a non-string) yields 0. */
  function Total(op: Value, vs: seq<real>): (t: real)
    ensures op == Str("sum") ==> t == Sum(vs)
    ensures op == Str("average") || op == Str("avg") ==>
      t == (if |vs| > 0 then Sum(vs) / (|vs| as real) else 0.0)
    ensures op == Str("count") ==> t == |vs| as real
    ensures op == Str("min") && vs == [] ==> t == 0.0
    ensures op == Str("min") && vs != [] ==> t in vs && forall i :: 0 <= i < |vs| ==> t <= vs[i]
    ensures op == Str("max") && vs == [] ==> t == 0.0
    ensures op == Str("max") && vs != [] ==> t in vs && forall i :: 0 <= i < |vs| ==> vs[i] <= t
    ensures op !in KnownOperations ==> t == 0.0
  {
    if op == Str("sum") then Sum(vs)
    else if op == Str("average") || op == Str("avg") then
      (if |vs| > 0 then Sum(vs) / (|vs| as real) else 0.0)
    else if op == Str("count") then |vs| as real
    else if op == Str("min") then (if |vs| > 0 then Minimum(vs) else 0.0)
    else if op == Str("max") then (if |vs| > 0 then Maximum(vs) else 0.0)
    else 0.0
  }

  const KnownOperations: set<Value> :=
    {Str("sum"), Str("average"), Str("avg"), Str("count"), Str("min"), Str("max")}

  /** `calculate_totals`: no `grid_rows` at all gives `{}`; otherwise exactly the configured
      columns get a figure, computed over the saved rows only. */
  function CalculateTotals(gridRows: Option<seq<GridRow>>, columns: map<string, Value>,
                           parse: string -> Option<real>): (totals: map<string, real>)
    ensures gridRows.None? ==> totals == map[]
    ensures gridRows.Some? ==> totals.Keys == columns.Keys
    ensures gridRows.Some? ==> forall f :: f in columns ==>
      totals[f] == Total(columns[f], ColumnValues(IncludedDocs(gridRows.value), f, parse))
  {
    match gridRows
    case None => map[]
    case Some(rows) =>
      var data := IncludedDocs(rows);
      map f | f in columns :: Total(columns[f], ColumnValues(data, f, parse))
  }

  /** A `count` column counts every saved row, numeric or not: coercion to 0 keeps the
      unparseable values in. */
  lemma CountIsIncludedRows(rows: seq<GridRow>, columns: map<string, Value>, f: string,
                            parse: string -> Option<real>)
    requires f in columns && columns[f] == Str("count")
    ensures CalculateTotals(Some(rows), columns, parse)[f] == Count(rows, IsIncluded) as real
  {
  }

  /** A grid whose row list is present but empty reports 0 for every configured column. */
  lemma EmptyGridAllZero(columns: map<string, Value>, parse: string -> Option<real>)
    ensures forall f :: f in columns ==> CalculateTotals(Some([]), columns, parse)[f] == 0.0
  {
  }

  lemma {:induction false} SumBounds(vs: seq<real>, lo: real, hi: real)
    requires forall i :: 0 <= i < |vs| ==> lo <= vs[i] <= hi
    ensures (|vs| as real) * lo <= Sum(vs) <= (|vs| as real) * hi
  {
    if vs != [] {
      SumBounds(vs[1..], lo, hi);
    }
  }

  lemma DivideBounds(s: real, n: real, lo: real, hi: real)
    requires n > 0.0
    requires n * lo <= s <= n * hi
    ensures lo <= s / n <= hi
  {
    var q := s / n;
    assert q * n == s;
    assert n * (q - lo) >= 0.0;
    assert n * (hi - q) >= 0.0;
  }

  /** An `average` column always lies between the `min` and `max` columns of the same field. */
  lemma AverageBetweenMinAndMax(vs: seq<real>)
    ensures Total(Str("min"), vs) <= Total(Str("average"), vs) <= Total(Str("max"), vs)
  {
    if vs != [] {
      MeanBounds(vs, Minimum(vs), Maximum(vs));
      assert Total(Str("min"), vs) == Minimum(vs);
      assert Total(Str("max"), vs) == Maximum(vs);
    }
  }

  /** The mean of a non-empty list lies within any bounds of its elements. */
  lemma MeanBounds(vs: seq<real>, lo: real, hi: real)
    requires vs != []
    requires forall i :: 0 <= i < |vs| ==> lo <= vs[i] <= hi
    ensures lo <= Sum(vs) / (|vs| as real) <= hi
  {
    SumBounds(vs, lo, hi);
    DivideBounds(Sum(vs), |vs| as real, lo, hi);
  }

  /** The three example rows `{q: 2, a: 10}`, `{q: 3, a: 20}`, `{q: "x", a: 30}`, all saved. */
  predicate IsExampleData(d0: Row, d1: Row, d2: Row) {
    && Get(d0, "q") == Num(2.0) && Get(d0, "a") == Num(10.0)
    && Get(d1, "q") == Num(3.0) && Get(d1, "a") == Num(20.0)
    && Get(d2, "q") == Str("x") && Get(d2, "a") == Num(30.0)
    && !Truthy(Get(d0, "__islocal")) && !Truthy(Get(d1, "__islocal")) && !Truthy(Get(d2, "__islocal"))
  }

  lemma ExampleDocs(d0: Row, d1: Row, d2: Row)
    requires IsExampleData(d0, d1, d2)
    ensures IncludedDocs([GridRow(Some(d0)), GridRow(Some(d1)), GridRow(Some(d2))]) == [d0, d1, d2]
  {
    var rows := [GridRow(Some(d0)), GridRow(Some(d1)), GridRow(Some(d2))];
    assert rows[1..][1..] == [GridRow(Some(d2))];
    assert IncludedDocs([GridRow(Some(d2))]) == [d2];
    assert IncludedDocs(rows[1..]) == [d1, d2];
  }

  lemma ExampleSums()
    ensures Sum([2.0, 3.0, 0.0]) == 5.0
    ensures Sum([10.0, 20.0, 30.0]) == 60.0
  {
    assert [2.0, 3.0, 0.0][1..] == [3.0, 0.0];
    assert [3.0, 0.0][1..] == [0.0];
    assert [10.0, 20.0, 30.0][1..] == [20.0, 30.0];
    assert [20.0, 30.0][1..] == [30.0];
  }

  lemma ExampleColumns(d0: Row, d1: Row, d2: Row, parse: string -> Option<real>)
    requires IsExampleData(d0, d1, d2)
    requires parse("x") == None
    ensures ColumnValues(IncludedDocs([GridRow(Some(d0)), GridRow(Some(d1)), GridRow(Some(d2))]), "q", parse)
            == [2.0, 3.0, 0.0]
    ensures ColumnValues(IncludedDocs([GridRow(Some(d0)), GridRow(Some(d1)), GridRow(Some(d2))]), "a", parse)
            == [10.0, 20.0, 30.0]
  {
    ExampleDocs(d0, d1, d2);
    var qs := ColumnValues([d0, d1, d2], "q", parse);
    assert qs[0] == 2.0 && qs[1] == 3.0 && qs[2] == 0.0;
    var as_ := ColumnValues([d0, d1, d2], "a", parse);
    assert as_[0] == 10.0 && as_[1] == 20.0 && as_[2] == 30.0;
  }

  lemma ExampleTotals()
    ensures Total(Str("sum"), [2.0, 3.0, 0.0]) == 5.0
    ensures Total(Str("count"), [2.0, 3.0, 0.0]) == 3.0
    ensures Total(Str("average"), [10.0, 20.0, 30.0]) == 20.0
  {
    ExampleSums();
  }

  /** Rows `{q: 2, a: 10}`, `{q: 3, a: 20}`, `{q: "x", a: 30}` with `{q: sum, a: average}` give
      `{q: 5, a: 20}`: the unparseable `"x"` adds 0 to the sum. */
  lemma ThreeRowExample(d0: Row, d1: Row, d2: Row, parse: string -> Option<real>)
    requires IsExampleData(d0, d1, d2)
    requires parse("x") == None
    ensures var totals := CalculateTotals(Some([GridRow(Some(d0)), GridRow(Some(d1)), GridRow(Some(d2))]),
                                          map["q" := Str("sum"), "a" := Str("average")], parse);
            totals.Keys == {"q", "a"} && totals["q"] == 5.0 && totals["a"] == 20.0
  {
    var rows := [GridRow(Some(d0)), GridRow(Some(d1)), GridRow(Some(d2))];
    var data := IncludedDocs(rows);
    ExampleColumns(d0, d1, d2, parse);
    ExampleTotals();
    var totals := CalculateTotals(Some(rows), map["q" := Str("sum"), "a" := Str("average")], parse);
    assert totals["q"] == Total(Str("sum"), [2.0, 3.0, 0.0]);
    assert totals["a"] == Total(Str("average"), [10.0, 20.0, 30.0]);
  }

  /** On the same rows a `count` of `q` is 3: the unparseable value is counted, not dropped. */
  lemma ThreeRowCount(d0: Row, d1: Row, d2: Row, parse: string -> Option<real>)
    requires IsExampleData(d0, d1, d2)
    requires parse("x") == None
    ensures CalculateTotals(Some([GridRow(Some(d0)), GridRow(Some(d1)), GridRow(Some(d2))]),
                            map["q" := Str("count")], parse)
            == map["q" := 3.0]
  {
    ExampleColumns(d0, d1, d2, parse);
    ExampleTotals();
  }
}

/** The cell layout of the rendered total row (`render_total_row` in tablez_grid.js). */
module TotalRow {
  import opened Totals

  /** One cell cloned from the first data row: its `data-fieldname` ("" when absent) and the
      marker classes the layout reads. */
  datatype TotalCol = TotalCol(fieldname: string, rowIndex: bool, rowCheck: bool,
                               sortableHandle: bool, actions: bool)

  /** What each cell of the total row shows. */
  datatype Cell =
    | Spacer                          // row index, checkbox or drag handle: a blank
    | ActionsSpacer                   // the actions column (or the last, or a nameless cell)
    | LabelCell(text: string)         // the first data column carries the label
    | Figure(fieldname: string, value: real)  // a configured column's total
    | Blank                           // any other data column

  predicate IsSpecial(c: TotalCol) {
    c.rowIndex || c.rowCheck || c.sortableHandle
  }

  /** A cell is a data column when it is none of the special or trailing cells and has a field name. */
  predicate IsDataCol(cols: seq<TotalCol>, i: nat)
    requires i < |cols|
  {
    !IsSpecial(cols[i]) && !cols[i].actions && i != |cols| - 1 && cols[i].fieldname != ""
  }

  predicate NoDataColBefore(cols: seq<TotalCol>, i: nat)
    requires i <= |cols|
  {
    forall j :: 0 <= j < i ==> !IsDataCol(cols, j)
  }

  /** The branch chain for cell `i` given the `isFirstDataCol` flag. */
  function CellAt(cols: seq<TotalCol>, i: nat, first: bool, totals: map<string, real>,
                  caption: string): Cell
    requires i < |cols|
  {
    var c := cols[i];
    if IsSpecial(c) then Spacer
    else if c.actions || i == |cols| - 1 || c.fieldname == "" then ActionsSpacer
    else if first then LabelCell(caption)
    else if c.fieldname in totals then Figure(c.fieldname, totals[c.fieldname])
    else Blank
  }

  function LayoutFrom(cols: seq<TotalCol>, i: nat, first: bool, totals: map<string, real>,
                      caption: string): (cells: seq<Cell>)
    requires i <= |cols|
    ensures |cells| == |cols| - i
    decreases |cols| - i
  {
    if i == |cols| then []
    else
      var first' := first && !IsDataCol(cols, i);
      [CellAt(cols, i, first, totals, caption)] + LayoutFrom(cols, i + 1, first', totals, caption)
  }

  /** The cells of the total row. `caption` is `total_row_config.label`, "" when unset. */
  function Layout(cols: seq<TotalCol>, totals: map<string, real>, caption: string): (cells: seq<Cell>)
    ensures |cells| == |cols|
  {
    LayoutFrom(cols, 0, true, totals, if caption == "" then "Total" else caption)
  }

  lemma {:induction false} LayoutFromCells(cols: seq<TotalCol>, i: nat, totals: map<string, real>, caption: string)
    requires i <= |cols|
    ensures forall j :: 0 <= j < |cols| - i ==>
      LayoutFrom(cols, i, NoDataColBefore(cols, i), totals, caption)[j]
        == CellAt(cols, i + j, NoDataColBefore(cols, i + j), totals, caption)
    decreases |cols| - i
  {
    if i < |cols| {
      var first := NoDataColBefore(cols, i);
      var first' := first && !IsDataCol(cols, i);
      assert first' == NoDataColBefore(cols, i + 1);
      LayoutFromCells(cols, i + 1, totals, caption);
      var cells := LayoutFrom(cols, i, first, totals, caption);
      var rest := LayoutFrom(cols, i + 1, first', totals, caption);
      assert rest == LayoutFrom(cols, i + 1, NoDataColBefore(cols, i + 1), totals, caption);
      assert cells == [CellAt(cols, i, first, totals, caption)] + rest;
      forall j | 1 <= j < |cols| - i
        ensures cells[j] == CellAt(cols, i + j, NoDataColBefore(cols, i + j), totals, caption)
      {
        assert cells[j] == rest[j - 1];
        assert rest[j - 1] == CellAt(cols, (i + 1) + (j - 1), NoDataColBefore(cols, (i + 1) + (j - 1)), totals, caption);
        assert (i + 1) + (j - 1) == i + j;
      }
    }
  }

  /** Every cell of the layout is the branch chain applied with the flag "no data column
      before this one". */
  lemma LayoutCellsAt(cols: seq<TotalCol>, totals: map<string, real>, caption: string)
    ensures var lbl := if caption == "" then "Total" else caption;
      forall k :: 0 <= k < |cols| ==>
        Layout(cols, totals, caption)[k] == CellAt(cols, k, NoDataColBefore(cols, k), totals, lbl)
  {
    var lbl := if caption == "" then "Total" else caption;
    assert NoDataColBefore(cols, 0);
    LayoutFromCells(cols, 0, totals, lbl);
    var cells := Layout(cols, totals, caption);
    assert cells == LayoutFrom(cols, 0, NoDataColBefore(cols, 0), totals, lbl);
    forall k | 0 <= k < |cols|
      ensures cells[k] == CellAt(cols, k, NoDataColBefore(cols, k), totals, lbl)
    {
      assert cells[k] == CellAt(cols, 0 + k, NoDataColBefore(cols, 0 + k), totals, lbl);
    }
  }

  /** Exactly the first data column carries the label, which reads `caption` or "Total" when
      the caption is empty; every later data column shows its total when it has one and is
      blank otherwise; special cells stay blank; the last cell is the actions spacer. */
  lemma LayoutShape(cols: seq<TotalCol>, totals: map<string, real>, caption: string)
    ensures var cells := Layout(cols, totals, caption);
      && (forall k :: 0 <= k < |cols| ==>
            (cells[k].LabelCell? <==> IsDataCol(cols, k) && NoDataColBefore(cols, k)))
      && (forall k :: 0 <= k < |cols| && cells[k].LabelCell? ==>
            cells[k].text == (if caption == "" then "Total" else caption))
      && (forall k :: 0 <= k < |cols| && IsDataCol(cols, k) && !NoDataColBefore(cols, k) ==>
            cells[k] == (if cols[k].fieldname in totals
                         then Figure(cols[k].fieldname, totals[cols[k].fieldname]) else Blank))
      && (forall k :: 0 <= k < |cols| && cells[k].Figure? ==>
            cells[k].fieldname == cols[k].fieldname && cols[k].fieldname in totals
            && cells[k].value == totals[cols[k].fieldname])
      && (forall k :: 0 <= k < |cols| && IsSpecial(cols[k]) ==> cells[k] == Spacer)
      && (|cols| > 0 && !IsSpecial(cols[|cols| - 1]) ==> cells[|cols| - 1] == ActionsSpacer)
  {
    LayoutCellsAt(cols, totals, caption);
  }
}

=== FILE: values.dfy ===
/** The Some/None datatype used wherever the source checks for a missing object. */
module Wrappers {

  datatype Option<+T> = None | Some(value: T) {

    /** The wrapped value, or `default` when there is none (the source's `x || default` on objects). */
    function GetOr(default: T): T {
      match this
      case Some(v) => v
      case None => default
    }
  }
}

/** Order-preserving filtering of sequences, shared by every field and row filter of the model. */
module Seqs {

  /** The elements of `s` that satisfy `p`, in their original order (`Array.prototype.filter`). */
  function Filter<T>(s: seq<T>, p: T -> bool): (r: seq<T>)
    ensures |r| <= |s|
    ensures forall i :: 0 <= i < |r| ==> p(r[i])
  {
    if s == [] then []
    else if p(s[0]) then [s[0]] + Filter(s[1..], p)
    else Filter(s[1..], p)
  }

  /** An element is kept exactly when it occurs in the input and satisfies the predicate. */
  lemma {:induction false} FilterMembers<T>(s: seq<T>, p: T -> bool, x: T)
    ensures x in Filter(s, p) <==> x in s && p(x)
  {
    if s != [] {
      FilterMembers(s[1..], p, x);
      assert s == [s[0]] + s[1..];
    }
  }

  /** Filtering distributes over concatenation, so relative order is kept. */
  lemma {:induction false} FilterAppend<T>(s: seq<T>, t: seq<T>, p: T -> bool)
    ensures Filter(s + t, p) == Filter(s, p) + Filter(t, p)
  {
    if s == [] {
      assert s + t == t;
    } else {
      assert (s + t)[0] == s[0];
      assert (s + t)[1..] == s[1..] + t;
      FilterAppend(s[1..], t, p);
    }
  }

  /** Filtering with a predicate that every element meets returns the input unchanged. */
  lemma {:induction false} FilterAll<T>(s: seq<T>, p: T -> bool)
    requires forall i :: 0 <= i < |s| ==> p(s[i])
    ensures Filter(s, p) == s
  {
    if s != [] {
      FilterAll(s[1..], p);
    }
  }

  /** Filtering with a predicate that no element meets returns the empty sequence. */
  lemma {:induction false} FilterNone<T>(s: seq<T>, p: T -> bool)
    requires forall i :: 0 <= i < |s| ==> !p(s[i])
    ensures Filter(s, p) == []
  {
    if s != [] {
      FilterNone(s[1..], p);
    }
  }

  /** The number of elements of `s` that satisfy `p`. */
  function Count<T>(s: seq<T>, p: T -> bool): (n: nat)
    ensures n <= |s|
  {
    if s == [] then 0
    else (if p(s[0]) then 1 else 0) + Count(s[1..], p)
  }

  lemma {:induction false} CountIsFilterLength<T>(s: seq<T>, p: T -> bool)
    ensures Count(s, p) == |Filter(s, p)|
  {
    if s != [] {
      CountIsFilterLength(s[1..], p);
    }
  }

  /** Counting a non-empty prefix: its head, then the matching prefix of the tail. */
  lemma CountPrefixTail<T>(s: seq<T>, p: T -> bool)
    ensures forall j :: 1 <= j <= |s| ==>
      Count(s[..j], p) == (if p(s[0]) then 1 else 0) + Count(s[1..][..j - 1], p)
  {
    forall j | 1 <= j <= |s|
      ensures Count(s[..j], p) == (if p(s[0]) then 1 else 0) + Count(s[1..][..j - 1], p)
    {
      assert s[..j][1..] == s[1..][..j - 1];
    }
  }
}

/** Plain-data stand-ins for the host framework's documents and field metadata. */
module Values {
  import opened Wrappers

  /** A scalar held in a row document. `Null` stands for both JavaScript `null` and `undefined`,
      which every branch of the source treats alike (`== null`, falsiness). Numbers are exact. */
  datatype Value = Null | Num(n: real) | Str(s: string) | Bool(b: bool)

  /** JavaScript truthiness of a scalar. NaN never occurs, because numbers here are finite reals. */
  predicate Truthy(v: Value) {
    match v
    case Null => false
    case Num(n) => n != 0.0
    case Str(s) => s != ""
    case Bool(b) => b
  }

  /** `String(v)` of a scalar; numbers go through the host's number formatting. */
  function JsString(v: Value, numText: real -> string): string {
    match v
    case Null => "null"
    case Num(x) => numText(x)
    case Str(s) => s
    case Bool(b) => if b then "true" else "false"
  }

  /** A row document: field name to value. */
  type Row = map<string, Value>

  /** `doc[key]`: an absent key reads as `undefined`. */
  function Get(row: Row, key: string): (v: Value)
    ensures key !in row ==> v == Null
    ensures key in row ==> v == row[key]
  {
    if key in row then row[key] else Null
  }

  /** One field definition from a doctype's metadata. An empty string stands for an absent
      string property (every use in the source tests it for truthiness only). */
  datatype Field = Field(
    fieldname: string,
    fieldtype: string,
    fieldLabel: string,
    options: string,
    hidden: bool,
    readOnly: bool,
    reqd: bool)

  /** `frappe.get_meta(doctype)` reduced to what the source reads: `None` when the meta or its
      `fields` list is missing. */
  type Meta = Option<seq<Field>>

  predicate IsLink(f: Field) {
    f.fieldtype == "Link"
  }

  /** The position of the first field meeting `pred`, or `|fields|` when none does. */
  function FindIndex(fields: seq<Field>, pred: Field -> bool): (i: nat)
    ensures i <= |fields|
    ensures i < |fields| ==> pred(fields[i])
    ensures forall j :: 0 <= j < i ==> !pred(fields[j])
  {
    if fields == [] then 0
    else if pred(fields[0]) then 0
    else 1 + FindIndex(fields[1..], pred)
  }

  /** `fields.find(pred)`: the first field meeting `pred`, if any. */
  function Find(fields: seq<Field>, pred: Field -> bool): (r: Option<Field>)
    ensures r.Some? ==> r.value in fields && pred(r.value)
    ensures r.None? <==> forall j :: 0 <= j < |fields| ==> !pred(fields[j])
  {
    var i := FindIndex(fields, pred);
    if i < |fields| then Some(fields[i]) else None
  }
}
